=== FILE: README.md ===
# ShadowIQ marketplace core, modelled in Dafny

ShadowIQ is a Django marketplace. Clients submit research-analysis projects
under pseudonymous accounts, pay through Stripe into escrow, and chat with a
keyword-routed assistant. This project models its core:

- the database state: users, projects, the audit log and the session slot
  `pseudonymous_user_id`;
- magic-link login;
- the request middleware and the two access decorators;
- the request handlers: project detail, submission, the payment endpoints
  and the dashboards;
- the Stripe escrow manager;
- the inquiry classifier.

It then proves what these promise.

Modules, one per source file:

- `wrappers.dfy`: `Option` and `Truthy`, Python's truth test on an optional string.
- `models.dfy`: users, projects, statuses and their stored strings, audit rows, download tokens, and project-id generation.
- `store.dfy`: the class `Db`. It holds the users map, the projects map (keyed by project code), the append-only audit log and the session slot. Its invariant `Valid` says:
  - aliases are unique;
  - non-null magic tokens are unique and carry an expiry;
  - every project's client and analyst exist;
  - every audit row points at existing rows.

  It also models user deletion (PROTECT and SET_NULL).
- `auth.py` → `auth.dfy`; `payment.py` → `payment.dfy`; `middleware.py` → `middleware.dfy`; `decorators.py` → `decorators.dfy`; `chatbot.py` → `chatbot.dfy`; `views.py` → `views.dfy`.

Code that changes state in place is modelled as a method that takes the `Db` object and declares `modifies db` (user deletion is a method of `Db` itself). Its `ensures` clauses say which outcome each input leads to and give the whole new state in terms of the old one. This covers the auth helpers, the payment manager, the middleware and the state-changing handlers. Pure decisions are functions with lemmas. These are the access checks, the redirects, the fee split, the dashboards, the decorators, the classifier and the id generator.

Everything outside the process is an input:

- the clock (`now`, in seconds);
- random values: tokens, new primary keys, the project-id draws and the alias suffix;
- each Stripe answer;
- mail delivery;
- the client IP and user agent.

A unique-constraint or NOT NULL violation on save is modelled as an error outcome, not as a precondition.

Behaviour of the code worth noting:

- Confirmation is not idempotent. A second confirmation with the same succeeded intent leaves the project as after the first, but appends a second `payment_processed` row (`Payment.ConfirmTwice`).
- The login view accepts a token only while its expiry is strictly after now. The library verifier `verify_magic_token` still accepts it at the expiry instant (`Views.VerificationPathsDisagreeAtExpiry`).
- Confirmation does not compare the posted intent id with the one stored on the project.
- The magic link is shown on screen, not mailed. So anyone who types an existing alias, an admin's included, is logged in as that account (`Views.LinkOnScreenLogsIn`).
- The wrappers `require_auth` and `require_admin` defined in `decorators.py` read `request.user_obj`, but the middleware only sets `request.user`. As defined, neither wrapper ever runs the view it wraps (see Findings). In the code as written this is masked: a request whose session names a user fails earlier, at the middleware's `last_seen` save, and a request without one is rightly refused. `views.py` as written does not apply these two: it imports other names from `decorators.py`, which that file does not define.

## Model

| member | source | states |
|---|---|---|
| Models.AlphabetChar | core/models.py:11 | each of the 36 draws names an uppercase letter or digit, and the character maps back to its draw |
| Models.AlphabetIndexInverse | core/models.py:11 | every id character is the image of exactly its own draw |
| Models.GenerateProjectId | core/models.py:8-12 | the id is the prefix, `-`, then 6 characters from A–Z and 0–9; character i is draw i |
| Models.EveryProjectIdIsGenerated | core/models.py:8-12 | every well-formed id is produced by some sequence of 6 draws |
| Models.GenerationIsInjective | core/models.py:8-12 | different draws give different ids |
| Models.NewUser | core/models.py:14-24 | a new account is a client (neither admin nor analyst), with no token, no expiry and no login |
| Models.Consume | core/views.py:142-145 | consuming a token clears token and expiry and sets the last login; alias, email, roles and timestamps are kept |
| Models.ParseStatus | core/models.py:34-42 | a stored status string parses iff it is one of the seven choices |
| Models.StatusValue | core/models.py:34-42 | every status is stored as one of the seven choices and parses back to itself |
| Models.ParsedStatusRoundTrip | core/models.py:34-42 | every valid stored status string survives parse then print |
| Models.ParsePaymentStatus | core/models.py:89-95 | a stored payment status parses iff it is one of the five choices |
| Models.PaymentStatusValue | core/models.py:89-95 | every payment status is stored as one of the five choices and parses back to itself |
| Models.NewProject | core/models.py:63-99 | a new project has its client and code, status `submitted`, payment `pending`, no analyst, no intent, no IRB flag, and the submitted fields |
| Models.CreateDownloadToken | core/models.py:205-213 | insertion fails iff the token value is taken; otherwise tokens stay unique and the new row is one-time and unused |
| Store.TokenHolderUnique | core/models.py:19 | at most one user holds a given token |
| Store.IssueKeepsConsistent | core/models.py:17-20 | storing a token nobody else holds keeps every store invariant |
| Store.ClearKeepsConsistent | core/models.py:17-20 | clearing a user's token, alias unchanged, keeps every store invariant |
| Store.ReviseKeepsConsistent | core/models.py:63-66 | changing a project but not its code, client or analyst keeps every store invariant |
| Store.DeleteKeepsConsistent | core/models.py:65-66 | removing a user who is nobody's client, with analysts and log authors nulled, keeps every store invariant |
| Store.UnassignAnalyst | core/models.py:66 | the deleted user's analyst assignments become null; every other project is unchanged |
| Store.ForgetUserInLog | core/models.py:188 | audit rows by the deleted user lose their user; every other row is unchanged |
| Store.Db.constructor | core/models.py:14-24 | an empty database satisfies the invariant |
| Store.Db.DeleteUser | core/models.py:65-66 | deletion is refused iff the user is some project's client; otherwise the user is removed, their assignments and log authorship become null, and the invariant holds |
| Auth.WithToken | core/auth.py:15-19 | storing a token sets it with an expiry of now + 24 h and changes nothing else |
| Auth.IssueToken | core/auth.py:15-20 | the save succeeds iff no other user holds the token; on failure no user changes |
| Auth.SendMagicLink | core/auth.py:13-54 | the token is stored before mail is attempted, so a mail failure still leaves it stored |
| Auth.VerifyMagicToken | core/auth.py:56-73 | returns a user iff the token is held and not expired before now; unknown or expired tokens change nothing; success consumes the token, so nobody holds it afterwards |
| Auth.GetOrCreatePseudonymousUser | core/auth.py:75-81 | an existing alias returns its holder (not created) with no change; otherwise exactly one new client is added, unless the key collides |
| Payment.PlatformFee | core/payment.py:89-91 | the fee is 20 percent of the total rounded down, and never more than the total |
| Payment.AnalystPayout | core/payment.py:92 | payout plus fee equals the total |
| Payment.Confirmed | core/payment.py:50-52 | confirmation sets payment `completed` and status `accepted`, changing nothing else |
| Payment.PaymentProcessedEntry | core/payment.py:55-63 | the confirmation row carries the project, amount, currency and intent id, with no user |
| Payment.PayoutReleasedEntry | core/payment.py:89-115 | the release row carries the transfer id, the fee `PlatformFee(total)` and the payout `AnalystPayout(total)`, which add up to the total |
| Payment.PaymentRefundedEntry | core/payment.py:147-155 | the refund row carries the refund id, amount and reason |
| Payment.CreatePaymentIntent | core/payment.py:18-40 | success stores the intent id and sets payment `processing`; an error returns none and changes nothing |
| Payment.ConfirmPayment | core/payment.py:43-74 | true iff the intent succeeded; then completed/accepted and one `payment_processed` row; else only payment `failed`, no row |
| Payment.ReleasePaymentToAnalyst | core/payment.py:77-120 | true iff an intent id is stored, the intent succeeded and the transfer went through; only then one `payout_released` row; the project never changes |
| Payment.RefundPayment | core/payment.py:123-160 | true iff an intent id is stored, the intent succeeded and the refund was created; only then payment `refunded` and one `payment_refunded` row; the project status is untouched |
| Payment.ConfirmTwice | core/payment.py:48-65 | a second confirmation leaves the project as after one, but the log holds two `payment_processed` rows; users and session are untouched and the store stays consistent |
| Chatbot.GetResponse | core/chatbot.py:107-118 | each of the seven keys selects its own reply; any other key gives the greeting |
| Chatbot.ReplyKey | core/chatbot.py:109-117 | every reply has a key in the response table |
| Chatbot.ReplyKeyRoundTrip | core/chatbot.py:107-118 | looking up a reply's key gives that reply back |
| Chatbot.Lower | core/chatbot.py:135 | lowercasing keeps the length and maps each character |
| Chatbot.LowerIdempotent | core/chatbot.py:135 | lowercasing twice is lowercasing once |
| Chatbot.ContainsIffOccurs | core/chatbot.py:139 | the substring test holds iff the keyword occurs at some position |
| Chatbot.AnyKeywordIff | core/chatbot.py:138-140 | a keyword list matches iff one of its keywords is contained in the message |
| Chatbot.FirstMatch | core/chatbot.py:137-140 | a found category is one of the table's categories |
| Chatbot.FirstMatchIsFirst | core/chatbot.py:137-142 | nothing is found iff no row matches; otherwise the first matching row wins |
| Chatbot.Classify | core/chatbot.py:133-142 | the result is one of the six categories or `greeting` |
| Chatbot.AnyKeywordIffOccurs | core/chatbot.py:138-139 | a keyword list matches iff one of its keywords occurs in the message |
| Chatbot.FirstMatchNoneIff | core/chatbot.py:137-142 | the search finds nothing iff no keyword of any row occurs in the message |
| Chatbot.ClassifyGreetingIff | core/chatbot.py:141-142 | the result is `greeting` iff no keyword occurs in the lowercased message |
| Chatbot.ClassifyPicksFirstCategory | core/chatbot.py:123-140 | the result is the first category, in table order, with a keyword in the message |
| Chatbot.ClassifyIgnoresCase | core/chatbot.py:135 | a message and its lowercased form classify the same |
| Chatbot.ClassifiedReply | core/chatbot.py:107-142 | the reply to a classified message is the greeting iff it was classified as `greeting`, else the reply for its category |
| Decorators.RequireAuth | core/decorators.py:7-17 | the view runs iff a user object is attached; otherwise 401 for JSON requests and a redirect to login else |
| Decorators.RequireAdmin | core/decorators.py:20-30 | the view runs iff the user object's `is_admin` is true (missing reads as false); otherwise 403 for JSON requests and a redirect to access-denied else |
| Decorators.AdminImpliesAuthenticated | core/decorators.py:7-30 | whatever the admin wrapper lets through, the authentication wrapper lets through with the same result |
| Middleware.Resolve | core/middleware.py:11-22 | the request user is the session id iff it names an existing user, and none otherwise |
| Middleware.CallAsWritten | core/middleware.py:10-25 | with no id or a stale id the request user is none and the view's response is returned; with a valid id the request raises |
| Middleware.LoggedInRequestRaises | core/middleware.py:16-18 | a request by a logged-in client ends in an error |
| Middleware.Call | core/middleware.py:10-25 | the request user is the resolved session user, only that user's `last_seen` becomes now, the session is kept, and the response is the view's |
| Middleware.GatedViewsNeverRun | core/decorators.py:12-28 | with `user_obj` never set, both wrappers refuse every request: `require_auth` with 401 for JSON and a login redirect otherwise, `require_admin` with 403 for JSON and an access-denied redirect otherwise |
| Middleware.GateRequest | core/middleware.py:11-22 | the attached `user_obj` is present iff a user resolved, and carries that user's admin flag |
| Middleware.GatesFollowSession | core/decorators.py:7-30 | with the resolved user attached, the authentication wrapper runs the view iff the session names a user, and the admin wrapper iff that user is an admin |
| Views.ProjectDetail | core/views.py:193-201 | 404 for an unknown project; the detail page iff the requester is the client or an admin; 403 otherwise |
| Views.OwnerOnly | core/views.py:235-238 | the payment endpoints let a request through iff the project exists and the requester is its client; 404 or 403 otherwise |
| Views.OwnerPage | core/views.py:323-349 | the payment pages render for the client only; 404 or the 403 page otherwise |
| Views.OwnerPageAgreesWithGate | core/views.py:323-349 | the payment pages open for exactly the requests the JSON payment gate admits |
| Views.OwnerOnlyStricterThanDetail | core/views.py:196-198 | whoever may pay may view; an admin who is not the client may view but not pay |
| Views.LoginRedirect | core/views.py:156-161 | admins go to the admin dashboard, other analysts to the analyst dashboard, clients to the client dashboard |
| Views.ClientDashboard | core/views.py:42-49 | the client dashboard lists exactly the requester's own projects |
| Views.AnalystDashboard | core/views.py:52-59 | the analyst dashboard lists exactly the projects assigned to the requester |
| Views.ClientDashboardOpens | core/views.py:45 | every project on a client's dashboard opens for them and passes the payment gate |
| Views.AnalystDashboardRefused | core/views.py:55 | a non-admin analyst is refused (403) the detail of an assigned project they are not the client of |
| Views.EffectiveAlias | core/views.py:91 | the given alias when it is non-empty, else `User-` and the random suffix |
| Views.EffectiveEmail | core/views.py:92 | the email stored on a new account is the given one when non-empty, else none |
| Views.LandsOnExactlyOne | core/views.py:90-93 | with unique aliases, get-or-create either collides on the fresh key or lands on exactly one account |
| Views.CreateKeepsOtherHolders | core/views.py:90-99 | creating the account does not change which other accounts hold the token |
| Views.RequestMagicLink | core/views.py:78-119 | no alias and no email: error page, no change. A key collision: error, no change. Otherwise the link is shown iff no other account holds the token; then the token with a 24 h expiry is stored and exactly one `magic_link_requested` row is appended; else error, a newly created account stays, no row |
| Views.VerificationPathsDisagreeAtExpiry | core/views.py:133-136 | the login view accepts a subset of what the library verifier accepts, and they differ exactly when the expiry is now |
| Views.VerifyMagicLink | core/views.py:122-166 | login succeeds iff a user holds the token with expiry strictly after now; then the session is that user, the token is consumed, one `user_logged_in` row is added, and the redirect follows the role; otherwise nothing changes |
| Views.LogoutView | core/views.py:173-186 | the session id is removed; one `user_logged_out` row is added iff the id named an existing user; the answer is a redirect home |
| Views.LinkOnScreenLogsIn | core/views.py:78-161 | whoever requests a link for an existing alias with an unused token is always shown a link, and following it logs them in as the alias's holder and sends them to the holder's dashboard; the holder ends with no token and a login time, and exactly a `magic_link_requested` then a `user_logged_in` row are appended |
| Views.FormSubmission | core/views.py:208-217 | a form yields a row iff every NOT NULL text field is present; each checkbox is ticked iff its value is non-empty |
| Views.SubmitProject | core/views.py:204-225 | a complete form with a fresh id adds exactly one project for the requester with default statuses and one `project_submitted` row; otherwise nothing changes |
| Views.CreatePaymentView | core/views.py:232-261 | 404, 403, 405 and 400 (missing or non-positive amount) change nothing; a processor error gives 500 with no change; success returns the intent id and sets payment `processing` |
| Views.ConfirmPaymentView | core/views.py:264-283 | 404, 403, 405 and 400 (missing intent id) change nothing; otherwise 200 iff the intent succeeded, with the manager's state change |
| Views.ReleasePaymentView | core/views.py:286-302 | 404, 405, 400 (not completed) and 400 (no account) leave the log alone whatever the processor would say; otherwise the manager's verdict is returned; the project never changes |
| Views.RefundReason | core/views.py:311 | the posted reason, or `No reason provided` when the field is absent |
| Views.RefundPaymentView | core/views.py:305-320 | a successful refund sets payment `refunded` and status `rejected` and adds one `payment_refunded` row; any failure gives 400 and changes nothing |

## Left out

- Views.CreatePaymentView: the amount arrives as whole cents, with none for a missing or malformed value. The float parse and `int(amount * 100)` truncation are not modelled. Positivity is checked on the cents, so an amount under one cent, which the source passes to the processor as 0 cents, gets 400 here.
- Views.CreatePaymentView: the success body carries only the intent id; the client secret and the echoed amount are left out.
- Views.ConfirmPaymentView: the intent id is taken as already stripped of surrounding whitespace.
- Views.VerifyMagicLink: the generic `Authentication error` branch is not modelled. Every save in this model either succeeds or is excluded by the store invariant.
- Views.RequestMagicLink: the displayed link is represented by the token; URL building and the template are left out.
- Views.RequestMagicLink: the account created before a failing save is kept, as under Django's default autocommit. A project setting that wraps each request in a transaction would roll it back; the settings are not part of this model.
- The handlers in `views.py` are modelled as if its imports resolved. As written, `views.py` imports `AuthToken`, four wrapper names and the helper `get_client_ip`, none of which `models.py` or `decorators.py` defines, so the module cannot be imported. Each handler takes the requesting user as given, with the wrapper assumed passed. The wrappers modelled in their place are those `decorators.py` defines.
- Views.ReleasePaymentView, Views.RefundPaymentView: these take no requester, because the admin wrapper is assumed passed. `views.py` imports that wrapper as `admin_required`, which `decorators.py` does not define; the admin wrapper it does define, `require_admin`, is modelled as `Decorators.RequireAdmin`.
- Views.SubmitProject: the database's length limits and the choice lists of `stage` and `support_type` are not enforced. `objects.create` does not validate choices.
- Payment.PlatformFee: this is integer 20 percent rounded down. The source multiplies by the float 0.20 and truncates, which can differ by rounding for very large totals.
- Chatbot.Lower: this lowercases ASCII letters only. Python's Unicode case mapping is not modelled.
- Middleware.Call: this is the corrected middleware. The user model gets a `lastSeen` field, which the source's model does not declare.
- Dashboards are modelled as sets; the `-created_at` ordering of every listing is left out. `admin_dashboard`, `home` and `login_placeholder` only render (the first lists every user and project), so they are not modelled.
- Auth.SendMagicLink: mail subject, body, sender and link URL are not modelled; only delivery success is an input.
- Primary keys are natural numbers, not UUIDs. Timestamps are integer seconds, and each request uses a single `now` where the source reads the clock several times.
- `ProjectFile`, `Deliverable` and `Message` carry no logic and are left out. The fields the core never reads are dropped: sample size, preferred methods, deadline, budget, agreed price and `updated_at`.
- The Stripe SDK calls are reduced to their answers. `get_payment_status` and `create_invoice` only forward a processor call, so they are not modelled.
- `storage.py` (S3 access and a virus-scan stub), `admin.py` and `urls.py` are not part of this model.
- Concurrency and transactions are not modelled: each operation runs alone against the store.

## Findings

| source | as written | input that shows it | evidently intended | confidence | as-written member | corrected member |
|---|---|---|---|---|---|---|
| core/decorators.py:12-28 | the wrappers read `request.user_obj`, while the middleware sets only `request.user` (core/middleware.py:16-22), so every request reaches the wrapper without `user_obj` and is refused | with the middleware corrected as in `Middleware.Call`, a logged-in user's JSON request through `require_auth` is answered 401 and through `require_admin` 403 | the middleware attaches the resolved user as `user_obj`, so the wrappers follow the session | not executed | Middleware.GatedViewsNeverRun | Middleware.GatesFollowSession |
| core/middleware.py:16-18 | a request whose session names an existing user saves with `update_fields=['last_seen']`, a field the user model does not declare, so the save raises and the request never reaches the view | session id 7 naming an existing client, any view | record `last_seen` on the user and hand the request on | not executed | Middleware.CallAsWritten, Middleware.LoggedInRequestRaises | Middleware.Call |

=== FILE: auth.dfy ===
/**
 * Magic-link credentials: issuing a token with a 24-hour expiry, exchanging
 * it once for a login, and finding or creating an account by alias.
 * Token values, fresh primary keys, the clock and mail delivery are inputs.
 */
module Auth {
  import opened Wrappers
  import opened Models
  import opened Store

  /** The account after a credential `token` is stored on it, expiring `MagicLinkLifetime` after `now`. */
  function WithToken(u: User, token: string, now: int): (v: User)
    ensures v.magicToken == Some(token) && v.magicTokenExpires == Some(now + MagicLinkLifetime)
    ensures v == u.(magicToken := v.magicToken, magicTokenExpires := v.magicTokenExpires)
  {
    u.(magicToken := Some(token), magicTokenExpires := Some(now + MagicLinkLifetime))
  }

  /**
   * Store `token` and its expiry on user `id` and save. The save fails, and
   * nothing is stored, when another user already holds that token value.
   */
  method IssueToken(db: Db, id: UserId, token: string, now: int) returns (saved: bool)
    requires db.Valid() && id in db.users
    modifies db
    ensures db.Valid()
    ensures saved <==> !TokenHeldByOther(old(db.users), id, token)
    ensures saved ==> db.users == old(db.users)[id := WithToken(old(db.users)[id], token, now)]
    ensures !saved ==> db.users == old(db.users)
    ensures db.projects == old(db.projects) && db.log == old(db.log) && db.session == old(db.session)
  {
    if exists other :: other in db.users && other != id && db.users[other].magicToken == Some(token) {
      var other :| other in db.users && other != id && db.users[other].magicToken == Some(token);
      assert HoldsToken(db.users, other, token);
      return false;
    }
    IssueKeepsConsistent(db.users, db.projects, db.log, id, token, now + MagicLinkLifetime);
    db.users := db.users[id := WithToken(db.users[id], token, now)];
    saved := true;
  }

  datatype SendOutcome = Sent | MailFailed | TokenTaken

  /**
   * Issue a link for an existing user, then try to mail it. The token is
   * stored before the mail is attempted, so a delivery failure still leaves
   * it in place; a token already held by someone else aborts with an error.
   */
  method SendMagicLink(db: Db, id: UserId, token: string, now: int, mailDelivered: bool) returns (r: SendOutcome)
    requires db.Valid() && id in db.users
    modifies db
    ensures db.Valid()
    ensures r == TokenTaken <==> TokenHeldByOther(old(db.users), id, token)
    ensures r == TokenTaken ==> db.users == old(db.users)
    ensures r != TokenTaken ==> db.users == old(db.users)[id := WithToken(old(db.users)[id], token, now)]
    ensures r != TokenTaken ==> (r == Sent <==> mailDelivered)
    ensures db.projects == old(db.projects) && db.log == old(db.log) && db.session == old(db.session)
  {
    var saved := IssueToken(db, id, token, now);
    if !saved {
      return TokenTaken;
    }
    r := if mailDelivered then Sent else MailFailed;
  }

  /** The library verifier's expiry test: the token is refused only when it expired strictly before `now`. */
  predicate AuthAccepts(u: User, now: int)
  {
    u.magicTokenExpires.Some? && !(u.magicTokenExpires.value < now)
  }

  /** Whether some user holds `token` and the library verifier would accept it at `now`. */
  ghost predicate TokenAcceptedByAuth(users: map<UserId, User>, token: string, now: int)
  {
    exists id :: HoldsToken(users, id, token) && AuthAccepts(users[id], now)
  }

  /**
   * Exchange a token for its user. Unknown token: nothing changes. Expired
   * token: nothing changes, the token stays stored. Otherwise the token and
   * expiry are cleared, the login time is set, and the user is returned;
   * afterwards nobody holds the token, so the same value never works twice.
   */
  method VerifyMagicToken(db: Db, token: string, now: int) returns (r: Option<UserId>)
    requires db.Valid()
    modifies db
    ensures db.Valid()
    ensures r.Some? <==> TokenAcceptedByAuth(old(db.users), token, now)
    ensures r.Some? ==> HoldsToken(old(db.users), r.value, token)
    ensures r.Some? ==> db.users == old(db.users)[r.value := Consume(old(db.users)[r.value], now)]
    ensures r.Some? ==> forall id :: !HoldsToken(db.users, id, token)
    ensures r.None? ==> db.users == old(db.users)
    ensures db.projects == old(db.projects) && db.log == old(db.log) && db.session == old(db.session)
  {
    if !exists id :: id in db.users && db.users[id].magicToken == Some(token) {
      return None;
    }
    var id :| id in db.users && db.users[id].magicToken == Some(token);
    forall other | HoldsToken(db.users, other, token)
      ensures other == id
    {
      TokenHolderUnique(db.users, other, id, token);
    }
    if db.users[id].magicTokenExpires.value < now {
      return None;
    }
    ClearKeepsConsistent(db.users, db.projects, db.log, id, Consume(db.users[id], now));
    db.users := db.users[id := Consume(db.users[id], now)];
    r := Some(id);
  }

  /** The user holding `alias`, if any. */
  ghost predicate HasAlias(users: map<UserId, User>, id: UserId, alias: string)
  {
    id in users && users[id].alias == alias
  }

  /**
   * Find the user with `alias`, or insert a new client account with that
   * alias and `email` under the primary key `newId`. Returns the user and
   * whether it was created; `None` when the insert collides with an
   * existing primary key.
   */
  method GetOrCreatePseudonymousUser(db: Db, alias: string, email: Option<string>, newId: UserId, now: int)
    returns (r: Option<(UserId, bool)>)
    requires db.Valid()
    modifies db
    ensures db.Valid()
    ensures (exists id :: HasAlias(old(db.users), id, alias)) ==>
      r.Some? && !r.value.1 && HasAlias(old(db.users), r.value.0, alias) && db.users == old(db.users)
    ensures (!exists id :: HasAlias(old(db.users), id, alias)) && newId in old(db.users) ==>
      r.None? && db.users == old(db.users)
    ensures (!exists id :: HasAlias(old(db.users), id, alias)) && newId !in old(db.users) ==>
      r == Some((newId, true)) && db.users == old(db.users)[newId := NewUser(alias, email, now)]
    ensures r.Some? ==> r.value.0 in db.users && db.users[r.value.0].alias == alias
    ensures db.projects == old(db.projects) && db.log == old(db.log) && db.session == old(db.session)
  {
    if exists id :: id in db.users && db.users[id].alias == alias {
      var id :| id in db.users && db.users[id].alias == alias;
      assert HasAlias(db.users, id, alias);
      return Some((id, false));
    }
    if newId in db.users {
      return None;
    }
    db.users := db.users[newId := NewUser(alias, email, now)];
    r := Some((newId, true));
  }
}

=== FILE: chatbot.dfy ===
/**
 * The inquiry chatbot: a keyword classifier that routes a free-text message
 * to an inquiry type, and the table of canned replies per inquiry type.
 */
module Chatbot {
  import opened Wrappers

  /** The canned reply constants, one per inquiry type. */
  datatype Reply = Greeting | PricingInquiry | TimelineInquiry | DeliverablesInfo | DataRequirements | ComplianceInfo | NextSteps

  /** The inquiry types the reply table knows. */
  const ResponseKeys: seq<string> := ["greeting", "pricing", "timeline", "deliverables", "data", "compliance", "next_steps"]

  /** The reply table: the constant for each known inquiry type, the greeting for anything else. */
  function GetResponse(inquiryType: string): (r: Reply)
    ensures inquiryType !in ResponseKeys ==> r == Greeting
    ensures inquiryType in ResponseKeys ==> ReplyKey(r) == inquiryType
  {
    match inquiryType
    case "pricing" => PricingInquiry
    case "timeline" => TimelineInquiry
    case "deliverables" => DeliverablesInfo
    case "data" => DataRequirements
    case "compliance" => ComplianceInfo
    case "next_steps" => NextSteps
    case _ => Greeting
  }

  /** The inquiry type a reply constant is filed under. */
  function ReplyKey(r: Reply): (k: string)
    ensures k in ResponseKeys
  {
    match r
    case Greeting => "greeting"
    case PricingInquiry => "pricing"
    case TimelineInquiry => "timeline"
    case DeliverablesInfo => "deliverables"
    case DataRequirements => "data"
    case ComplianceInfo => "compliance"
    case NextSteps => "next_steps"
  }

  /** Each constant is reachable: looking up its own key gives it back. */
  lemma ReplyKeyRoundTrip(r: Reply)
    ensures GetResponse(ReplyKey(r)) == r
  {
  }

  /** The classifier's table: category name and its keywords, in the order they are tried. */
  const Keywords: seq<(string, seq<string>)> := [
    ("pricing", ["price", "cost", "fee", "quote", "budget", "how much", "expensive"]),
    ("timeline", ["timeline", "how long", "deadline", "rush", "urgent", "fast", "quick"]),
    ("deliverables", ["deliverable", "output", "what do i get", "notebook", "report", "code"]),
    ("data", ["data", "format", "file", "upload", "dataset", "csv", "excel", "requirements"]),
    ("compliance", ["compliance", "irb", "ethics", "privacy", "security", "legal", "hipaa"]),
    ("next_steps", ["next", "how do i", "process", "submit", "start", "begin"])
  ]

  /** The category names of `Keywords`, in order. */
  const Categories: seq<string> := ["pricing", "timeline", "deliverables", "data", "compliance", "next_steps"]

  /** The inquiry type used when nothing matches. */
  const DefaultInquiry: string := "greeting"

  /** ASCII lower-casing of one character. */
  function LowerChar(c: char): char
  {
    if 'A' <= c <= 'Z' then ((c as int) + 32) as char else c
  }

  /** ASCII lower-casing of a message, character by character. */
  function Lower(s: string): (r: string)
    ensures |r| == |s|
    ensures forall i :: 0 <= i < |s| ==> r[i] == LowerChar(s[i])
  {
    if s == [] then [] else [LowerChar(s[0])] + Lower(s[1..])
  }

  /** Lower-casing twice is lower-casing once. */
  lemma LowerIdempotent(s: string)
    ensures Lower(Lower(s)) == Lower(s)
  {
    assert forall i :: 0 <= i < |s| ==> Lower(Lower(s))[i] == Lower(s)[i];
  }

  /** `k` occurs in `s` starting at position `i`. */
  ghost predicate OccursAt(k: string, s: string, i: int)
  {
    0 <= i && i + |k| <= |s| && s[i..i + |k|] == k
  }

  /** `k` occurs in `s` as a contiguous substring. */
  ghost predicate Occurs(k: string, s: string)
  {
    exists i :: OccursAt(k, s, i)
  }

  /** Python's `k in s` for strings: a left-to-right scan for `k`. */
  function Contains(s: string, k: string): bool
    decreases |s|
  {
    if |k| > |s| then false
    else if s[..|k|] == k then true
    else Contains(s[1..], k)
  }

  /** A slice of the tail of `s` is the slice of `s` one position further on. */
  lemma {:induction false} TailSlice(s: string, j: nat, n: nat)
    requires j + n < |s|
    ensures s[1..][j..j + n] == s[j + 1..j + 1 + n]
  {
    var x, y := s[1..][j..j + n], s[j + 1..j + 1 + n];
    forall t | 0 <= t < n
      ensures x[t] == y[t]
    {
    }
  }

  /** The scan finds `k` exactly when `k` occurs somewhere in `s`. */
  lemma {:induction false} ContainsIffOccurs(s: string, k: string)
    ensures Contains(s, k) <==> Occurs(k, s)
    decreases |s|
  {
    if |k| > |s| {
      assert forall i :: !OccursAt(k, s, i);
    } else if s[..|k|] == k {
      assert OccursAt(k, s, 0);
    } else {
      ContainsIffOccurs(s[1..], k);
      if Occurs(k, s) {
        var i :| OccursAt(k, s, i);
        assert i != 0;
        TailSlice(s, i - 1, |k|);
        assert OccursAt(k, s[1..], i - 1);
      }
      if Occurs(k, s[1..]) {
        var i :| OccursAt(k, s[1..], i);
        TailSlice(s, i, |k|);
        assert OccursAt(k, s, i + 1);
      }
    }
  }

  /** Some keyword of `ks` occurs in `m`, trying them in order. */
  function AnyKeyword(ks: seq<string>, m: string): bool
  {
    |ks| > 0 && (Contains(m, ks[0]) || AnyKeyword(ks[1..], m))
  }

  lemma {:induction false} AnyKeywordIff(ks: seq<string>, m: string)
    ensures AnyKeyword(ks, m) <==> exists j :: 0 <= j < |ks| && Contains(m, ks[j])
  {
    if |ks| > 0 {
      AnyKeywordIff(ks[1..], m);
      if exists j :: 0 <= j < |ks| && Contains(m, ks[j]) {
        var j :| 0 <= j < |ks| && Contains(m, ks[j]);
        if j > 0 {
          assert ks[1..][j - 1] == ks[j];
        }
      }
      if exists j :: 0 <= j < |ks[1..]| && Contains(m, ks[1..][j]) {
        var j :| 0 <= j < |ks[1..]| && Contains(m, ks[1..][j]);
        assert ks[j + 1] == ks[1..][j];
      }
    }
  }

  /** The name of the first category of `table` with a keyword in `m`, if any. */
  function FirstMatch(table: seq<(string, seq<string>)>, m: string): (r: Option<string>)
    ensures r.Some? ==> exists i :: 0 <= i < |table| && table[i].0 == r.value
  {
    if table == [] then None
    else if AnyKeyword(table[0].1, m) then Some(table[0].0)
    else
      var rest := FirstMatch(table[1..], m);
      assert rest.Some? ==> exists i :: 0 <= i < |table[1..]| && table[1..][i].0 == rest.value;
      assert rest.Some? ==> exists i :: 1 <= i < |table| && table[i].0 == rest.value;
      rest
  }

  /** `i` is the first row of `table` with a keyword occurring in `m`. */
  ghost predicate IsFirstMatch(table: seq<(string, seq<string>)>, m: string, i: int)
  {
    && 0 <= i < |table|
    && AnyKeyword(table[i].1, m)
    && forall j :: 0 <= j < i ==> !AnyKeyword(table[j].1, m)
  }

  /** The search returns the category of the first matching row, and nothing when no row matches. */
  lemma {:induction false} FirstMatchIsFirst(table: seq<(string, seq<string>)>, m: string)
    ensures FirstMatch(table, m).None? <==> forall i :: 0 <= i < |table| ==> !AnyKeyword(table[i].1, m)
    ensures forall i :: IsFirstMatch(table, m, i) ==> FirstMatch(table, m) == Some(table[i].0)
    ensures FirstMatch(table, m).Some? ==> exists i :: IsFirstMatch(table, m, i) && FirstMatch(table, m) == Some(table[i].0)
  {
    if table != [] {
      FirstMatchIsFirst(table[1..], m);
      if !AnyKeyword(table[0].1, m) {
        forall i | IsFirstMatch(table, m, i)
          ensures FirstMatch(table, m) == Some(table[i].0)
        {
          assert i > 0;
          assert IsFirstMatch(table[1..], m, i - 1);
        }
        if FirstMatch(table, m).Some? {
          var i :| IsFirstMatch(table[1..], m, i) && FirstMatch(table[1..], m) == Some(table[1..][i].0);
          assert IsFirstMatch(table, m, i + 1);
        }
        if forall i :: 0 <= i < |table[1..]| ==> !AnyKeyword(table[1..][i].1, m) {
          forall i | 0 <= i < |table|
            ensures !AnyKeyword(table[i].1, m)
          {
            if i > 0 { assert table[i] == table[1..][i - 1]; }
          }
        }
      } else {
        assert IsFirstMatch(table, m, 0);
      }
    }
  }

  /**
   * Classify a message: the first category, in table order, one of whose
   * keywords occurs in the lower-cased message; the greeting otherwise.
   */
  function Classify(message: string): (r: string)
    ensures r in Categories || r == DefaultInquiry
  {
    match FirstMatch(Keywords, Lower(message))
    case Some(c) => c
    case None => DefaultInquiry
  }

  /** No keyword of any row of `table` occurs in `m`. */
  ghost predicate NoKeywordIn(table: seq<(string, seq<string>)>, m: string)
  {
    forall i, j :: 0 <= i < |table| && 0 <= j < |table[i].1| ==> !Occurs(table[i].1[j], m)
  }

  /** No keyword of any category occurs in the lower-cased message. */
  ghost predicate NoKeywordOccurs(message: string)
  {
    NoKeywordIn(Keywords, Lower(message))
  }

  lemma {:induction false} AnyKeywordIffOccurs(ks: seq<string>, m: string)
    ensures AnyKeyword(ks, m) <==> exists j :: 0 <= j < |ks| && Occurs(ks[j], m)
  {
    AnyKeywordIff(ks, m);
    forall j | 0 <= j < |ks|
      ensures Contains(m, ks[j]) <==> Occurs(ks[j], m)
    {
      ContainsIffOccurs(m, ks[j]);
    }
  }

  /** The search finds nothing exactly when no keyword of any row occurs in `m`. */
  lemma {:induction false} FirstMatchNoneIff(table: seq<(string, seq<string>)>, m: string)
    ensures FirstMatch(table, m).None? <==> NoKeywordIn(table, m)
  {
    FirstMatchIsFirst(table, m);
    forall i | 0 <= i < |table|
      ensures AnyKeyword(table[i].1, m) <==> exists j :: 0 <= j < |table[i].1| && Occurs(table[i].1[j], m)
    {
      AnyKeywordIffOccurs(table[i].1, m);
    }
  }

  /** The classifier falls back to the greeting exactly when no keyword occurs in the message. */
  lemma {:induction false} ClassifyGreetingIff(message: string)
    ensures Classify(message) == DefaultInquiry <==> NoKeywordOccurs(message)
  {
    FirstMatchNoneIff(Keywords, Lower(message));
    var r := FirstMatch(Keywords, Lower(message));
    if r.Some? {
      var i :| 0 <= i < |Keywords| && Keywords[i].0 == r.value;
      assert Keywords[i].0 == Categories[i];
      assert DefaultInquiry !in Categories;
    }
  }

  /**
   * When category `i` is the first, in table order, with a keyword occurring
   * in the lower-cased message, the message is classified as that category.
   */
  lemma {:induction false} ClassifyPicksFirstCategory(message: string, i: int)
    requires IsFirstMatch(Keywords, Lower(message), i)
    ensures Classify(message) == Keywords[i].0 == Categories[i]
  {
    FirstMatchIsFirst(Keywords, Lower(message));
  }

  /** A message and its lower-cased form are classified alike. */
  lemma ClassifyIgnoresCase(message: string)
    ensures Classify(Lower(message)) == Classify(message)
  {
    LowerIdempotent(message);
  }

  /** Every classification routes to a reply; only the fallback routes to the greeting. */
  lemma {:induction false} ClassifiedReply(message: string)
    ensures GetResponse(Classify(message)) == Greeting <==> Classify(message) == DefaultInquiry
    ensures ReplyKey(GetResponse(Classify(message))) == Classify(message)
  {
    var c := Classify(message);
    assert c in ResponseKeys;
  }
}

=== FILE: decorators.dfy ===
/**
 * The two view wrappers: one lets a request through only with a user
 * object attached, the other only with an admin user object. Both answer a
 * denied JSON request with an error status and any other with a redirect,
 * and never run the wrapped view on denial.
 */
module Decorators {
  import opened Wrappers

  /** The user object a request carries; `isAdmin` is `None` when the object has no such attribute. */
  datatype Principal = Principal(isAdmin: Option<bool>)

  /** The `user_obj` attribute of a request: not set at all, set to `None`, or set to an object. */
  datatype UserAttr = Unset | NullUser | Bound(principal: Principal)

  /** The parts of a request the wrappers read: `user_obj` and the `Accept` header. */
  datatype Request = Request(userObj: UserAttr, accept: Option<string>)

  /** What a wrapped view answers: the view's own result, or the wrapper's refusal. */
  datatype Gated<R> = Ran(result: R) | Json401 | Json403 | RedirectTo(target: string)

  /** The request asks for JSON: its `Accept` header is exactly `application/json`. */
  predicate WantsJson(req: Request)
  {
    req.accept == Some("application/json")
  }

  /** The request carries a user object. */
  predicate Authenticated(req: Request)
  {
    req.userObj.Bound?
  }

  /** The request carries a user object whose `is_admin` attribute is present and true. */
  predicate AdminRequest(req: Request)
  {
    req.userObj.Bound? && req.userObj.principal.isAdmin == Some(true)
  }

  /**
   * The authentication wrapper: run the view iff a user object is attached;
   * otherwise 401 for a JSON request and a redirect to the login page else.
   */
  function RequireAuth<R>(req: Request, view: Request -> R): (g: Gated<R>)
    ensures g.Ran? <==> Authenticated(req)
    ensures g.Ran? ==> g.result == view(req)
    ensures !Authenticated(req) ==> (g == Json401 <==> WantsJson(req))
    ensures !Authenticated(req) && !WantsJson(req) ==> g == RedirectTo("login")
  {
    if req.userObj.Unset? || req.userObj.NullUser? then
      if req.accept == Some("application/json") then Json401 else RedirectTo("login")
    else
      Ran(view(req))
  }

  /**
   * The admin wrapper: run the view iff the user object's `is_admin` is
   * true (a missing attribute reads as false); otherwise 403 for a JSON
   * request and a redirect to the access-denied page else.
   */
  function RequireAdmin<R>(req: Request, view: Request -> R): (g: Gated<R>)
    ensures g.Ran? <==> AdminRequest(req)
    ensures g.Ran? ==> g.result == view(req)
    ensures !AdminRequest(req) ==> (g == Json403 <==> WantsJson(req))
    ensures !AdminRequest(req) && !WantsJson(req) ==> g == RedirectTo("access_denied")
  {
    var user := if req.userObj.Bound? then Some(req.userObj.principal) else None;
    if user.None? || !user.value.isAdmin.Some? || !user.value.isAdmin.value then
      if req.accept == Some("application/json") then Json403 else RedirectTo("access_denied")
    else
      Ran(view(req))
  }

  /** Anything the admin wrapper lets through, the authentication wrapper lets through as well. */
  lemma AdminImpliesAuthenticated<R>(req: Request, view: Request -> R)
    ensures RequireAdmin(req, view).Ran? ==> RequireAuth(req, view).Ran?
    ensures RequireAdmin(req, view).Ran? ==> RequireAdmin(req, view) == RequireAuth(req, view)
  {
  }
}

=== FILE: middleware.dfy ===
/**
 * The per-request identity resolver: reads the user id kept in the session,
 * attaches the matching user to the request (or none), records when that
 * user was last seen, and hands the request on to the rest of the stack.
 */
module Middleware {
  import opened Wrappers
  import opened Models
  import opened Store
  import Decorators

  /** The user a session refers to: the stored id, when it names an existing user. */
  function Resolve(session: Option<UserId>, users: map<UserId, User>): (r: Option<UserId>)
    ensures r.Some? <==> session.Some? && session.value in users
    ensures r.Some? ==> r == session
  {
    if session.Some? && session.value in users then session else None
  }

  /** How a request leaves the middleware: with the downstream response, or with an uncaught error. */
  datatype Outcome<R> = Responded(user: Option<UserId>, response: R) | Raised(user: Option<UserId>)

  /**
   * The middleware as written. With no session id, or one that names no
   * user, the request user is none and the downstream response is returned.
   * With an id that names a user, the user is attached and then saved with
   * `update_fields=['last_seen']`; the user model declares no such field, so
   * the save raises and the request ends in an error with nothing stored.
   */
  function CallAsWritten<R>(session: Option<UserId>, users: map<UserId, User>, getResponse: Option<UserId> -> R)
    : (o: Outcome<R>)
    ensures Resolve(session, users).None? ==> o == Responded(None, getResponse(None))
    ensures Resolve(session, users).Some? ==> o == Raised(session)
  {
    if session.Some? then
      if session.value in users then Raised(session)
      else Responded(None, getResponse(None))
    else
      Responded(None, getResponse(None))
  }

  /** A concrete case: a logged-in client's request never reaches the view. */
  lemma LoggedInRequestRaises()
    ensures CallAsWritten(Some(7), map[7 := NewUser("client-7", None, 0)], (u: Option<UserId>) => 200) == Raised(Some(7))
  {
  }

  /**
   * The middleware with `last_seen` declared on the user. The request user
   * is the resolved session user; only that user's `lastSeen` becomes `now`;
   * a stale session id is left in the session; the downstream response is
   * returned unchanged in every case.
   */
  method Call<R>(db: Db, now: int, getResponse: Option<UserId> -> R) returns (requestUser: Option<UserId>, response: R)
    requires db.Valid()
    modifies db
    ensures db.Valid()
    ensures requestUser == Resolve(old(db.session), old(db.users))
    ensures response == getResponse(requestUser)
    ensures requestUser.Some? ==>
      db.users == old(db.users)[requestUser.value := old(db.users)[requestUser.value].(lastSeen := Some(now))]
    ensures requestUser.None? ==> db.users == old(db.users)
    ensures db.session == old(db.session) && db.projects == old(db.projects) && db.log == old(db.log)
  {
    requestUser := None;
    if db.session.Some? {
      var id := db.session.value;
      if id in db.users {
        requestUser := Some(id);
        db.users := db.users[id := db.users[id].(lastSeen := Some(now))];
      }
    }
    response := getResponse(requestUser);
  }

  /**
   * The request the view wrappers inspect, as written: the middleware sets
   * `request.user`, and nothing sets the `user_obj` attribute they read.
   */
  function GateRequestAsWritten(accept: Option<string>): Decorators.Request
  {
    Decorators.Request(Decorators.Unset, accept)
  }

  /**
   * As written, neither wrapper ever runs its view: `require_auth` answers 401
   * for JSON and redirects to the login page otherwise, `require_admin`
   * answers 403 for JSON and redirects to the access-denied page otherwise.
   */
  lemma GatedViewsNeverRun<R>(accept: Option<string>, view: Decorators.Request -> R)
    ensures !Decorators.RequireAuth(GateRequestAsWritten(accept), view).Ran?
    ensures !Decorators.RequireAdmin(GateRequestAsWritten(accept), view).Ran?
    ensures Decorators.RequireAuth(GateRequestAsWritten(accept), view) ==
      if accept == Some("application/json") then Decorators.Json401 else Decorators.RedirectTo("login")
    ensures Decorators.RequireAdmin(GateRequestAsWritten(accept), view) ==
      if accept == Some("application/json") then Decorators.Json403 else Decorators.RedirectTo("access_denied")
  {
  }

  /**
   * The request the wrappers inspect when the middleware attaches the
   * resolved user as `user_obj`: the user's admin flag, or `None` when no
   * user resolved.
   */
  function GateRequest(requestUser: Option<UserId>, users: map<UserId, User>, accept: Option<string>): (req: Decorators.Request)
    requires requestUser.Some? ==> requestUser.value in users
    ensures req.accept == accept
    ensures req.userObj.Bound? <==> requestUser.Some?
    ensures requestUser.Some? ==> req.userObj.principal.isAdmin == Some(users[requestUser.value].isAdmin)
  {
    Decorators.Request(
      if requestUser.Some? then Decorators.Bound(Decorators.Principal(Some(users[requestUser.value].isAdmin)))
      else Decorators.NullUser,
      accept)
  }

  /**
   * With the resolved user attached, the wrappers follow the session: the
   * authentication wrapper runs the view iff the session names a user, and
   * the admin wrapper iff that user is an admin.
   */
  lemma {:induction false} GatesFollowSession<R>(session: Option<UserId>, users: map<UserId, User>, accept: Option<string>,
                                                 view: Decorators.Request -> R)
    ensures Decorators.RequireAuth(GateRequest(Resolve(session, users), users, accept), view).Ran? <==>
      Resolve(session, users).Some?
    ensures Decorators.RequireAdmin(GateRequest(Resolve(session, users), users, accept), view).Ran? <==>
      Resolve(session, users).Some? && users[session.value].isAdmin
  {
    var req := GateRequest(Resolve(session, users), users, accept);
    assert Decorators.Authenticated(req) <==> Resolve(session, users).Some?;
  }
}

=== FILE: models.dfy ===
/** Records, choice sets and defaults of the marketplace's database models. */
module Models {
  import opened Wrappers

  /** Primary key of a pseudonymous user (a UUID in the database). */
  type UserId = nat

  /** Lifetime of a magic-link credential: 24 hours, in seconds. */
  const MagicLinkLifetime: int := 24 * 60 * 60

  // ---------------------------------------------------------------------------
  // Project identifiers: PREFIX-XXXXXX
  // ---------------------------------------------------------------------------

  /** Size of `string.ascii_uppercase + string.digits`, the alphabet of a project id's random part. */
  const AlphabetSize: nat := 36

  /** Length of the random part of a project id. */
  const RandomPartLength: nat := 6

  /** `c` belongs to the alphabet: an upper-case ASCII letter or a decimal digit. */
  predicate IsIdChar(c: char)
  {
    'A' <= c <= 'Z' || '0' <= c <= '9'
  }

  /** The `k`-th character of the alphabet: A..Z first, then 0..9. */
  function AlphabetChar(k: nat): (c: char)
    requires k < AlphabetSize
    ensures IsIdChar(c)
    ensures AlphabetIndex(c) == k
  {
    if k < 26 then (('A' as int) + k) as char else (('0' as int) + k - 26) as char
  }

  /** Position of an alphabet character; the inverse of `AlphabetChar`. */
  function AlphabetIndex(c: char): (k: nat)
    requires IsIdChar(c)
    ensures k < AlphabetSize
  {
    if 'A' <= c <= 'Z' then (c as int) - ('A' as int) else 26 + (c as int) - ('0' as int)
  }

  /** Every alphabet character is the character at its own index. */
  lemma AlphabetIndexInverse(c: char)
    requires IsIdChar(c)
    ensures AlphabetChar(AlphabetIndex(c)) == c
  {
  }

  /** `id` is the prefix, a dash, then six characters from the alphabet. */
  predicate IsProjectId(prefix: string, id: string)
  {
    && |id| == |prefix| + 1 + RandomPartLength
    && id[..|prefix|] == prefix
    && id[|prefix|] == '-'
    && forall i :: |prefix| < i < |id| ==> IsIdChar(id[i])
  }

  /** Six draws of the random source, each an index into the alphabet. */
  predicate ValidPicks(picks: seq<nat>)
  {
    |picks| == RandomPartLength && forall i :: 0 <= i < |picks| ==> picks[i] < AlphabetSize
  }

  /** The id built from the configured prefix and six random draws. */
  function GenerateProjectId(prefix: string, picks: seq<nat>): (id: string)
    requires ValidPicks(picks)
    ensures IsProjectId(prefix, id)
    ensures forall i :: 0 <= i < RandomPartLength ==> id[|prefix| + 1 + i] == AlphabetChar(picks[i])
  {
    prefix + "-" + seq(RandomPartLength, i requires 0 <= i < RandomPartLength => AlphabetChar(picks[i]))
  }

  /**
   * Generation is a bijection between draws and well-formed ids: every
   * well-formed id comes from some draws, and different draws give different ids.
   */
  lemma {:induction false} EveryProjectIdIsGenerated(prefix: string, id: string)
    requires IsProjectId(prefix, id)
    ensures exists picks :: ValidPicks(picks) && GenerateProjectId(prefix, picks) == id
  {
    var n := |prefix| + 1;
    var draws := seq(RandomPartLength, i requires 0 <= i < RandomPartLength => AlphabetIndex(id[n + i]));
    forall i | 0 <= i < |draws|
      ensures 0 <= draws[i] < AlphabetSize
    {
      assert draws[i] == AlphabetIndex(id[n + i]);
    }
    var picks: seq<nat> := draws;
    var g := GenerateProjectId(prefix, picks);
    forall k | 0 <= k < |id|
      ensures g[k] == id[k]
    {
      if k < |prefix| {
        assert g[k] == g[..|prefix|][k];
        assert id[k] == id[..|prefix|][k];
      } else if k >= n {
        AlphabetIndexInverse(id[k]);
      }
    }
    assert g == id;
  }

  lemma {:induction false} GenerationIsInjective(prefix: string, a: seq<nat>, b: seq<nat>)
    requires ValidPicks(a) && ValidPicks(b) && a != b
    ensures GenerateProjectId(prefix, a) != GenerateProjectId(prefix, b)
  {
    var i :| 0 <= i < RandomPartLength && a[i] != b[i];
    var n := |prefix| + 1;
    assert GenerateProjectId(prefix, a)[n + i] == AlphabetChar(a[i]);
    assert AlphabetIndex(AlphabetChar(a[i])) != AlphabetIndex(AlphabetChar(b[i]));
  }

  // ---------------------------------------------------------------------------
  // PseudonymousUser
  // ---------------------------------------------------------------------------

  /**
   * A pseudonymous account. `lastSeen` is the timestamp the middleware
   * maintains; the source's model class does not declare it (see Middleware).
   */
  datatype User = User(
    alias: string,
    email: Option<string>,
    magicToken: Option<string>,
    magicTokenExpires: Option<int>,
    isAdmin: bool,
    isAnalyst: bool,
    createdAt: int,
    lastLogin: Option<int>,
    lastSeen: Option<int>)

  /** A client is an account with neither staff flag. */
  predicate IsClient(u: User)
  {
    !u.isAdmin && !u.isAnalyst
  }

  /** A freshly created account: no credential, no login yet, both flags at their default. */
  function NewUser(alias: string, email: Option<string>, now: int): (u: User)
    ensures u.alias == alias && u.email == email && u.createdAt == now
    ensures IsClient(u)
    ensures u.magicToken.None? && u.magicTokenExpires.None?
    ensures u.lastLogin.None? && u.lastSeen.None?
  {
    User(alias, email, None, None, false, false, now, None, None)
  }

  /** The account after its credential is exchanged for a login at `now`: single use by clearing. */
  function Consume(u: User, now: int): (v: User)
    ensures v.magicToken.None? && v.magicTokenExpires.None? && v.lastLogin == Some(now)
    ensures v.alias == u.alias && v.email == u.email && v.isAdmin == u.isAdmin && v.isAnalyst == u.isAnalyst
    ensures v.createdAt == u.createdAt && v.lastSeen == u.lastSeen
  {
    u.(magicToken := None, magicTokenExpires := None, lastLogin := Some(now))
  }

  // ---------------------------------------------------------------------------
  // Project.status and Project.payment_status
  // ---------------------------------------------------------------------------

  datatype ProjectStatus = Submitted | Accepted | InProgress | Qa | Completed | Rejected | Disputed

  /** The stored values of the status choice list, in declaration order. */
  const StatusChoices: seq<string> :=
    ["submitted", "accepted", "in_progress", "qa", "completed", "rejected", "disputed"]

  function ParseStatus(v: string): (r: Option<ProjectStatus>)
    ensures r.Some? <==> v in StatusChoices
  {
    if v == "submitted" then Some(Submitted)
    else if v == "accepted" then Some(Accepted)
    else if v == "in_progress" then Some(InProgress)
    else if v == "qa" then Some(Qa)
    else if v == "completed" then Some(Completed)
    else if v == "rejected" then Some(Rejected)
    else if v == "disputed" then Some(Disputed)
    else None
  }

  /** The stored value of a status; parsing it gives the status back. */
  function StatusValue(s: ProjectStatus): (v: string)
    ensures v in StatusChoices
    ensures ParseStatus(v) == Some(s)
  {
    match s
    case Submitted => "submitted"
    case Accepted => "accepted"
    case InProgress => "in_progress"
    case Qa => "qa"
    case Completed => "completed"
    case Rejected => "rejected"
    case Disputed => "disputed"
  }

  /** Every stored value the status column admits is the value of exactly the status it parses to. */
  lemma ParsedStatusRoundTrip(v: string)
    requires v in StatusChoices
    ensures ParseStatus(v).Some? && StatusValue(ParseStatus(v).value) == v
  {
  }

  datatype PaymentStatus = Pending | Processing | PaymentCompleted | Failed | Refunded

  const PaymentStatusChoices: seq<string> := ["pending", "processing", "completed", "failed", "refunded"]

  function ParsePaymentStatus(v: string): (r: Option<PaymentStatus>)
    ensures r.Some? <==> v in PaymentStatusChoices
  {
    if v == "pending" then Some(Pending)
    else if v == "processing" then Some(Processing)
    else if v == "completed" then Some(PaymentCompleted)
    else if v == "failed" then Some(Failed)
    else if v == "refunded" then Some(Refunded)
    else None
  }

  function PaymentStatusValue(s: PaymentStatus): (v: string)
    ensures v in PaymentStatusChoices
    ensures ParsePaymentStatus(v) == Some(s)
  {
    match s
    case Pending => "pending"
    case Processing => "processing"
    case PaymentCompleted => "completed"
    case Failed => "failed"
    case Refunded => "refunded"
  }

  // ---------------------------------------------------------------------------
  // Project
  // ---------------------------------------------------------------------------

  /**
   * A research project. `code` is the unique human-facing `project_id`;
   * the free-text scheduling and pricing fields the core never reads are not kept.
   */
  datatype Project = Project(
    code: string,
    client: UserId,
    assignedAnalyst: Option<UserId>,
    title: string,
    description: string,
    stage: string,
    supportType: string,
    researchArea: string,
    confirmsLawfulUse: bool,
    confirmsDataRights: bool,
    irbApprovalProvided: bool,
    status: ProjectStatus,
    paymentStatus: PaymentStatus,
    stripePaymentIntentId: Option<string>,
    createdAt: int,
    completedAt: Option<int>)

  /** The text fields a submission supplies; each is NOT NULL in the table. */
  datatype Submission = Submission(
    title: string,
    description: string,
    stage: string,
    supportType: string,
    researchArea: string,
    confirmsLawfulUse: bool,
    confirmsDataRights: bool)

  /** A newly inserted project: defaults `submitted` / `pending`, no analyst, no payment reference. */
  function NewProject(code: string, client: UserId, s: Submission, now: int): (p: Project)
    ensures p.code == code && p.client == client && p.createdAt == now
    ensures p.status == Submitted && p.paymentStatus == Pending
    ensures p.assignedAnalyst.None? && p.stripePaymentIntentId.None? && p.completedAt.None?
    ensures !p.irbApprovalProvided
    ensures p.title == s.title && p.description == s.description && p.stage == s.stage
    ensures p.supportType == s.supportType && p.researchArea == s.researchArea
    ensures p.confirmsLawfulUse == s.confirmsLawfulUse && p.confirmsDataRights == s.confirmsDataRights
  {
    Project(code, client, None, s.title, s.description, s.stage, s.supportType, s.researchArea,
            s.confirmsLawfulUse, s.confirmsDataRights, false,
            Submitted, Pending, None, now, None)
  }

  // ---------------------------------------------------------------------------
  // AuditLog
  // ---------------------------------------------------------------------------

  /**
   * Every action tag the core writes. The first ten are the declared choices;
   * the last five are written by the views and the payment manager without
   * being declared (choices are not enforced when a row is created).
   */
  datatype AuditAction =
    | ProjectSubmitted | ProjectAccepted | StatusChanged | FileUploaded | FileDownloaded
    | DeliverableUploaded | PaymentProcessed | MessageSent | ProjectRejected | DisputeFiled
    | MagicLinkRequested | UserLoggedIn | UserLoggedOut | PayoutReleased | PaymentRefunded

  /** The JSON `details` payload of each kind of entry the core writes. */
  datatype Details =
    | NoDetails
    | AliasDetails(alias: string)
    | PaymentDetails(amount: nat, currency: string, paymentIntentId: string)
    | PayoutDetails(transferId: string, payout: nat, platformFee: nat)
    | RefundDetails(refundId: string, refunded: nat, reason: string)

  /** One immutable audit row; `project` is the project's code. */
  datatype AuditEntry = AuditEntry(
    project: Option<string>,
    user: Option<UserId>,
    action: AuditAction,
    details: Details,
    ipAddress: Option<string>,
    userAgent: Option<string>,
    createdAt: int)

  // ---------------------------------------------------------------------------
  // DownloadToken
  // ---------------------------------------------------------------------------

  datatype DownloadToken = DownloadToken(
    deliverable: nat,
    token: string,
    createdAt: int,
    expiresAt: int,
    usedAt: Option<int>,
    isOneTime: bool)

  /** The `token` column is unique. */
  predicate DownloadTokensUnique(ts: seq<DownloadToken>)
  {
    forall i, j :: 0 <= i < j < |ts| ==> ts[i].token != ts[j].token
  }

  /**
   * Inserting a token row: refused when the value is already taken (unique
   * constraint); otherwise the new row is one-time, unused, and uniqueness is kept.
   */
  function CreateDownloadToken(ts: seq<DownloadToken>, deliverable: nat, token: string, now: int, expiresAt: int)
    : (r: Option<seq<DownloadToken>>)
    requires DownloadTokensUnique(ts)
    ensures r.None? <==> exists i :: 0 <= i < |ts| && ts[i].token == token
    ensures r.Some? ==> DownloadTokensUnique(r.value) && |r.value| == |ts| + 1 && r.value[..|ts|] == ts
    ensures r.Some? ==> var t := r.value[|ts|]; t.token == token && t.isOneTime && t.usedAt.None? && t.expiresAt == expiresAt
  {
    if exists i :: 0 <= i < |ts| && ts[i].token == token then None
    else Some(ts + [DownloadToken(deliverable, token, now, expiresAt, None, true)])
  }
}

=== FILE: payment.dfy ===
/**
 * The escrow payment manager: creating a payment intent, confirming it,
 * releasing the analyst's share and refunding the client. Each answer of
 * the payment processor is an input to the operation that would have
 * asked for it.
 */
module Payment {
  import opened Wrappers
  import opened Models
  import opened Store

  /** The processor's answer to "create an intent". */
  datatype Creation = IntentCreated(intentId: string) | CreateFailed

  /** The processor's answer to "retrieve an intent": its status, amount (cents) and currency, or an error. */
  datatype Retrieval = Retrieved(succeeded: bool, amount: nat, currency: string) | RetrieveFailed

  /** The processor's answer to "transfer the payout". */
  datatype TransferResult = Transferred(transferId: string) | TransferFailed

  /** The processor's answer to "refund the intent". */
  datatype RefundResult = RefundCreated(refundId: string, amount: nat) | RefundFailed

  /** The platform keeps 20 percent of every released payment. */
  const PlatformFeePercent: nat := 20

  /** The platform's share of `total` cents: 20 percent, rounded down to a whole cent. */
  function PlatformFee(total: nat): (fee: nat)
    ensures fee <= total
    ensures fee * 100 <= total * PlatformFeePercent < (fee + 1) * 100
  {
    total * PlatformFeePercent / 100
  }

  /** The analyst's share: whatever the fee leaves, so the two shares add up to the total. */
  function AnalystPayout(total: nat): (payout: nat)
    ensures payout + PlatformFee(total) == total
  {
    total - PlatformFee(total)
  }

  /** Whether the retrieval says the intent succeeded. */
  predicate Succeeded(r: Retrieval)
  {
    r.Retrieved? && r.succeeded
  }

  /** The project after a successful confirmation: paid in escrow, and accepted. */
  function Confirmed(p: Project): (q: Project)
    ensures q.paymentStatus == PaymentCompleted && q.status == Accepted
    ensures q == p.(paymentStatus := q.paymentStatus, status := q.status)
  {
    p.(paymentStatus := PaymentCompleted, status := Accepted)
  }

  /** The audit row a successful confirmation writes. */
  function PaymentProcessedEntry(code: string, r: Retrieval, intentId: string, now: int): (e: AuditEntry)
    requires r.Retrieved?
    ensures e.action == PaymentProcessed && e.project == Some(code) && e.user.None?
    ensures e.details == PaymentDetails(r.amount, r.currency, intentId)
  {
    AuditEntry(Some(code), None, PaymentProcessed, PaymentDetails(r.amount, r.currency, intentId), None, None, now)
  }

  /** The audit row a successful release writes: the transfer and the fee split. */
  function PayoutReleasedEntry(code: string, transferId: string, total: nat, now: int): (e: AuditEntry)
    ensures e.action == PayoutReleased && e.project == Some(code) && e.user.None?
    ensures e.details.PayoutDetails? && e.details.transferId == transferId
    ensures e.details.platformFee == PlatformFee(total) && e.details.payout == AnalystPayout(total)
    ensures e.details.payout + e.details.platformFee == total
  {
    AuditEntry(Some(code), None, PayoutReleased, PayoutDetails(transferId, AnalystPayout(total), PlatformFee(total)), None, None, now)
  }

  /** The audit row a successful refund writes. */
  function PaymentRefundedEntry(code: string, refundId: string, amount: nat, reason: string, now: int): (e: AuditEntry)
    ensures e.action == PaymentRefunded && e.project == Some(code) && e.user.None?
    ensures e.details == RefundDetails(refundId, amount, reason)
  {
    AuditEntry(Some(code), None, PaymentRefunded, RefundDetails(refundId, amount, reason), None, None, now)
  }

  /**
   * Ask for a payment intent. On success the project records the intent id
   * and moves to `processing`; on a processor error nothing changes and no
   * intent is returned. No audit row is written either way.
   */
  method CreatePaymentIntent(db: Db, code: string, answer: Creation) returns (intent: Option<string>)
    requires db.Valid() && code in db.projects
    modifies db
    ensures db.Valid()
    ensures answer.IntentCreated? ==> intent == Some(answer.intentId)
    ensures answer.IntentCreated? ==> db.projects == old(db.projects)[code :=
      old(db.projects)[code].(stripePaymentIntentId := Some(answer.intentId), paymentStatus := Processing)]
    ensures answer.CreateFailed? ==> intent.None? && db.projects == old(db.projects)
    ensures db.users == old(db.users) && db.log == old(db.log) && db.session == old(db.session)
  {
    if answer.CreateFailed? {
      return None;
    }
    db.projects := db.projects[code := db.projects[code].(stripePaymentIntentId := Some(answer.intentId), paymentStatus := Processing)];
    intent := Some(answer.intentId);
  }

  /**
   * Confirm a payment with the intent `intentId` the caller names. A
   * succeeded intent marks the project paid and accepted and appends one
   * `payment_processed` row; anything else marks the payment failed and
   * leaves the project status and the log alone.
   */
  method ConfirmPayment(db: Db, code: string, intentId: string, answer: Retrieval, now: int) returns (ok: bool)
    requires db.Valid() && code in db.projects
    modifies db
    ensures db.Valid()
    ensures ok <==> Succeeded(answer)
    ensures ok ==> db.projects == old(db.projects)[code := Confirmed(old(db.projects)[code])]
    ensures ok ==> db.log == old(db.log) + [PaymentProcessedEntry(code, answer, intentId, now)]
    ensures !ok ==> db.projects == old(db.projects)[code := old(db.projects)[code].(paymentStatus := Failed)]
    ensures !ok ==> db.log == old(db.log)
    ensures db.users == old(db.users) && db.session == old(db.session)
  {
    if Succeeded(answer) {
      db.projects := db.projects[code := Confirmed(db.projects[code])];
      db.log := db.log + [PaymentProcessedEntry(code, answer, intentId, now)];
      return true;
    }
    db.projects := db.projects[code := db.projects[code].(paymentStatus := Failed)];
    ok := false;
  }

  /**
   * Release the escrowed payment to the analyst. Refused, with no change,
   * when the project has no intent id, the intent cannot be retrieved or did
   * not succeed, or the transfer fails. On success one `payout_released` row
   * records the split; the project itself is not changed.
   */
  method ReleasePaymentToAnalyst(db: Db, code: string, answer: Retrieval, transfer: TransferResult, now: int)
    returns (ok: bool)
    requires db.Valid() && code in db.projects
    modifies db
    ensures db.Valid()
    ensures ok <==> Truthy(old(db.projects)[code].stripePaymentIntentId) && Succeeded(answer) && transfer.Transferred?
    ensures ok ==> db.log == old(db.log) + [PayoutReleasedEntry(code, transfer.transferId, answer.amount, now)]
    ensures !ok ==> db.log == old(db.log)
    ensures db.users == old(db.users) && db.projects == old(db.projects) && db.session == old(db.session)
  {
    if !Truthy(db.projects[code].stripePaymentIntentId) {
      return false;
    }
    if !Succeeded(answer) || transfer.TransferFailed? {
      return false;
    }
    db.log := db.log + [PayoutReleasedEntry(code, transfer.transferId, answer.amount, now)];
    ok := true;
  }

  /**
   * Refund the client. Refused, with no change, when the project has no
   * intent id, the intent cannot be retrieved or did not succeed, or the
   * refund fails. On success the payment status becomes `refunded` and one
   * `payment_refunded` row is appended; the project status is not touched here.
   */
  method RefundPayment(db: Db, code: string, reason: string, answer: Retrieval, refund: RefundResult, now: int)
    returns (ok: bool)
    requires db.Valid() && code in db.projects
    modifies db
    ensures db.Valid()
    ensures ok <==> Truthy(old(db.projects)[code].stripePaymentIntentId) && Succeeded(answer) && refund.RefundCreated?
    ensures ok ==> db.projects == old(db.projects)[code := old(db.projects)[code].(paymentStatus := Refunded)]
    ensures ok ==> db.log == old(db.log) + [PaymentRefundedEntry(code, refund.refundId, refund.amount, reason, now)]
    ensures !ok ==> db.projects == old(db.projects) && db.log == old(db.log)
    ensures db.users == old(db.users) && db.session == old(db.session)
  {
    if !Truthy(db.projects[code].stripePaymentIntentId) {
      return false;
    }
    if !Succeeded(answer) || refund.RefundFailed? {
      return false;
    }
    db.projects := db.projects[code := db.projects[code].(paymentStatus := Refunded)];
    db.log := db.log + [PaymentRefundedEntry(code, refund.refundId, refund.amount, reason, now)];
    ok := true;
  }

  /**
   * Confirming twice with the same succeeded intent ends in the same project
   * state as confirming once, but writes two `payment_processed` rows:
   * confirmation is idempotent on the project, not on the log.
   */
  method ConfirmTwice(db: Db, code: string, intentId: string, answer: Retrieval, now: int)
    requires db.Valid() && code in db.projects && Succeeded(answer)
    modifies db
    ensures db.projects == old(db.projects)[code := Confirmed(old(db.projects)[code])]
    ensures db.log == old(db.log) + [PaymentProcessedEntry(code, answer, intentId, now), PaymentProcessedEntry(code, answer, intentId, now)]
    ensures db.Valid() && db.users == old(db.users) && db.session == old(db.session)
  {
    var first := ConfirmPayment(db, code, intentId, answer, now);
    var second := ConfirmPayment(db, code, intentId, answer, now);
  }
}

=== FILE: store.dfy ===
/**
 * The persistent state the core shares: the user table, the project table,
 * the audit log and the current request's session slot, with the table
 * constraints the models declare.
 */
module Store {
  import opened Wrappers
  import opened Models

  /** Each alias belongs to at most one user (`unique=True`). */
  ghost predicate AliasesUnique(users: map<UserId, User>)
  {
    forall a, b :: a in users && b in users && a != b ==> users[a].alias != users[b].alias
  }

  /** A non-null magic token belongs to at most one user (`unique=True, null=True`). */
  ghost predicate TokensUnique(users: map<UserId, User>)
  {
    forall a, b :: a in users && b in users && a != b && users[a].magicToken.Some? ==>
      users[a].magicToken != users[b].magicToken
  }

  /** A stored token always carries an expiry: the two are set and cleared together. */
  ghost predicate TokensCarryExpiry(users: map<UserId, User>)
  {
    forall a :: a in users && users[a].magicToken.Some? ==> users[a].magicTokenExpires.Some?
  }

  /** Each project is filed under its own code; its client exists (PROTECT) and so does its analyst, if any. */
  ghost predicate ProjectsWellFormed(users: map<UserId, User>, projects: map<string, Project>)
  {
    forall c :: c in projects ==>
      && projects[c].code == c
      && projects[c].client in users
      && (projects[c].assignedAnalyst.Some? ==> projects[c].assignedAnalyst.value in users)
  }

  /** Every user or project an audit row points to exists. */
  ghost predicate LogWellFormed(users: map<UserId, User>, projects: map<string, Project>, log: seq<AuditEntry>)
  {
    forall i :: 0 <= i < |log| ==>
      && (log[i].user.Some? ==> log[i].user.value in users)
      && (log[i].project.Some? ==> log[i].project.value in projects)
  }

  ghost predicate Consistent(users: map<UserId, User>, projects: map<string, Project>, log: seq<AuditEntry>)
  {
    && AliasesUnique(users)
    && TokensUnique(users)
    && TokensCarryExpiry(users)
    && ProjectsWellFormed(users, projects)
    && LogWellFormed(users, projects, log)
  }

  /** `id` holds the magic token `token`. */
  ghost predicate HoldsToken(users: map<UserId, User>, id: UserId, token: string)
  {
    id in users && users[id].magicToken == Some(token)
  }

  /** Some user other than `id` already holds `token`: saving it on `id` violates uniqueness. */
  ghost predicate TokenHeldByOther(users: map<UserId, User>, id: UserId, token: string)
  {
    exists other :: other != id && HoldsToken(users, other, token)
  }

  /** At most one user holds a given token. */
  lemma TokenHolderUnique(users: map<UserId, User>, a: UserId, b: UserId, token: string)
    requires TokensUnique(users)
    requires HoldsToken(users, a, token) && HoldsToken(users, b, token)
    ensures a == b
  {
  }

  /** Storing a token nobody else holds, with its expiry, keeps the user-table constraints. */
  lemma {:induction false} IssueKeepsConsistent(users: map<UserId, User>, projects: map<string, Project>,
                                                log: seq<AuditEntry>, id: UserId, token: string, expires: int)
    requires Consistent(users, projects, log) && id in users
    requires !TokenHeldByOther(users, id, token)
    ensures Consistent(users[id := users[id].(magicToken := Some(token), magicTokenExpires := Some(expires))], projects, log)
  {
    var users' := users[id := users[id].(magicToken := Some(token), magicTokenExpires := Some(expires))];
    forall a, b | a in users' && b in users' && a != b && users'[a].magicToken.Some?
      ensures users'[a].magicToken != users'[b].magicToken
    {
      if a == id {
        assert !HoldsToken(users, b, token);
      } else if b == id {
        assert !HoldsToken(users, a, token);
      }
    }
  }

  /** Replacing a user by one with the same alias and no token keeps the constraints. */
  lemma {:induction false} ClearKeepsConsistent(users: map<UserId, User>, projects: map<string, Project>,
                                                log: seq<AuditEntry>, id: UserId, u: User)
    requires Consistent(users, projects, log) && id in users
    requires u.alias == users[id].alias && u.magicToken.None?
    ensures Consistent(users[id := u], projects, log)
  {
  }

  /** Replacing a project by one with the same code, client and analyst keeps the store consistent. */
  lemma {:induction false} ReviseKeepsConsistent(users: map<UserId, User>, projects: map<string, Project>,
                                                 log: seq<AuditEntry>, code: string, p: Project)
    requires Consistent(users, projects, log) && code in projects
    requires p.code == code && p.client == projects[code].client && p.assignedAnalyst == projects[code].assignedAnalyst
    ensures Consistent(users, projects[code := p], log)
  {
    var revised := projects[code := p];
    assert revised.Keys == projects.Keys;
    forall i | 0 <= i < |log| && log[i].project.Some?
      ensures log[i].project.value in revised
    {
    }
  }

  /** Every project whose analyst is `id` loses its analyst (SET_NULL). */
  function UnassignAnalyst(projects: map<string, Project>, id: UserId): (r: map<string, Project>)
    ensures r.Keys == projects.Keys
    ensures forall c :: c in projects ==>
      r[c] == if projects[c].assignedAnalyst == Some(id) then projects[c].(assignedAnalyst := None) else projects[c]
  {
    map c | c in projects :: if projects[c].assignedAnalyst == Some(id) then projects[c].(assignedAnalyst := None) else projects[c]
  }

  /** Every audit row whose user is `id` loses its user (SET_NULL); nothing else in the log changes. */
  function ForgetUserInLog(log: seq<AuditEntry>, id: UserId): (r: seq<AuditEntry>)
    ensures |r| == |log|
    ensures forall i :: 0 <= i < |log| ==>
      r[i] == if log[i].user == Some(id) then log[i].(user := None) else log[i]
  {
    seq(|log|, i requires 0 <= i < |log| => if log[i].user == Some(id) then log[i].(user := None) else log[i])
  }

  /** `id` is the client of some project. */
  ghost predicate IsSomeClient(projects: map<string, Project>, id: UserId)
  {
    exists c :: c in projects && projects[c].client == id
  }

  /** Deleting a user who is nobody's client, with the SET_NULL cascades, keeps the store consistent. */
  lemma {:induction false} DeleteKeepsConsistent(users: map<UserId, User>, projects: map<string, Project>,
                                                 log: seq<AuditEntry>, id: UserId)
    requires Consistent(users, projects, log) && id in users && !IsSomeClient(projects, id)
    ensures Consistent(users - {id}, UnassignAnalyst(projects, id), ForgetUserInLog(log, id))
  {
    var us, ps, lg := users - {id}, UnassignAnalyst(projects, id), ForgetUserInLog(log, id);
    forall c | c in ps
      ensures ps[c].code == c && ps[c].client in us
      ensures ps[c].assignedAnalyst.Some? ==> ps[c].assignedAnalyst.value in us
    {
      assert projects[c].client != id;
    }
    forall i | 0 <= i < |lg|
      ensures lg[i].user.Some? ==> lg[i].user.value in us
      ensures lg[i].project.Some? ==> lg[i].project.value in ps
    {
    }
  }

  datatype DeleteOutcome = Deleted | Protected

  class Db {
    var users: map<UserId, User>
    var projects: map<string, Project>
    var log: seq<AuditEntry>
    /** `request.session['pseudonymous_user_id']`, absent when nobody is logged in. */
    var session: Option<UserId>

    ghost predicate Valid()
      reads this
    {
      Consistent(users, projects, log)
    }

    constructor ()
      ensures Valid()
      ensures users == map[] && projects == map[] && log == [] && session.None?
    {
      users, projects, log, session := map[], map[], [], None;
    }

    /**
     * Deleting a user: refused while they are the client of a project
     * (PROTECT); otherwise their analyst assignments and audit-row authorship
     * are nulled (SET_NULL) and the row is removed.
     */
    method DeleteUser(id: UserId) returns (r: DeleteOutcome)
      requires Valid() && id in users
      modifies this
      ensures Valid()
      ensures r == Protected <==> IsSomeClient(old(projects), id)
      ensures r == Protected ==> unchanged(this)
      ensures r == Deleted ==>
        && users == old(users) - {id}
        && projects == UnassignAnalyst(old(projects), id)
        && log == ForgetUserInLog(old(log), id)
        && session == old(session)
    {
      if exists c :: c in projects && projects[c].client == id {
        return Protected;
      }
      DeleteKeepsConsistent(users, projects, log, id);
      users := users - {id};
      projects := UnassignAnalyst(projects, id);
      log := ForgetUserInLog(log, id);
      r := Deleted;
    }
  }
}

=== FILE: views.dfy ===
/**
 * The request handlers: magic-link request and login, logout, project
 * detail and submission, the four payment endpoints, the dashboards, and
 * the access checks inside them. The resolved request user is passed in
 * explicitly; randomness, the clock and the payment processor's answers are
 * inputs.
 */
module Views {
  import opened Wrappers
  import opened Models
  import opened Store
  import opened Auth
  import Payment

  /** The JSON payloads the payment endpoints answer with. */
  datatype JsonBody =
    | Success(message: string)
    | SuccessFlag(success: bool)
    | IntentReady(paymentIntentId: string)
    | Failure(error: string)

  /** What a handler answers. */
  datatype Response =
    | Page(template: string, status: nat)
    | ErrorPage(template: string, error: string)
    | LinkPage(user: UserId, token: string)
    | Redirect(target: string)
    | ProjectRedirect(code: string)
    | Json(status: nat, body: JsonBody)
    | NotFound
    | ServerError

  // ---------------------------------------------------------------------------
  // Access checks
  // ---------------------------------------------------------------------------

  /** Project detail is open to the project's client and to admins. */
  predicate CanViewProject(requester: UserId, who: User, p: Project)
  {
    p.client == requester || who.isAdmin
  }

  /**
   * The project-detail handler: 404 for an unknown code; otherwise the
   * detail page iff the requester is the client or an admin, and 403 else.
   */
  function ProjectDetail(users: map<UserId, User>, projects: map<string, Project>, requester: UserId, code: string)
    : (r: Response)
    requires requester in users
    ensures code !in projects ==> r == NotFound
    ensures code in projects ==>
      (r == Page("core/project_detail.html", 200) <==> CanViewProject(requester, users[requester], projects[code]))
    ensures code in projects && !CanViewProject(requester, users[requester], projects[code]) ==>
      r == Page("core/access_denied.html", 403)
  {
    if code !in projects then NotFound
    else if projects[code].client != requester && !users[requester].isAdmin then Page("core/access_denied.html", 403)
    else Page("core/project_detail.html", 200)
  }

  /**
   * The owner-only gate of the payment endpoints: 404 for an unknown code,
   * 403 for anyone but the project's client (admins included), and no
   * refusal for the client.
   */
  function OwnerOnly(projects: map<string, Project>, requester: UserId, code: string): (r: Option<Response>)
    ensures r.None? <==> code in projects && projects[code].client == requester
    ensures code !in projects ==> r == Some(NotFound)
    ensures code in projects && projects[code].client != requester ==> r == Some(Json(403, Failure("Unauthorized")))
  {
    if code !in projects then Some(NotFound)
    else if projects[code].client != requester then Some(Json(403, Failure("Unauthorized")))
    else None
  }

  /**
   * The payment, payment-success and payment-cancel pages: 404 for an
   * unknown code, the access-denied page (403) for anyone but the client,
   * and the named page for the client.
   */
  function OwnerPage(projects: map<string, Project>, requester: UserId, code: string, template: string): (r: Response)
    ensures code !in projects ==> r == NotFound
    ensures code in projects && projects[code].client == requester ==> r == Page(template, 200)
    ensures code in projects && projects[code].client != requester ==> r == Page("core/access_denied.html", 403)
  {
    if code !in projects then NotFound
    else if projects[code].client != requester then Page("core/access_denied.html", 403)
    else Page(template, 200)
  }

  /** The owner pages open for exactly the requests the JSON payment gate lets through. */
  lemma {:induction false} OwnerPageAgreesWithGate(projects: map<string, Project>, requester: UserId, code: string, template: string)
    ensures OwnerPage(projects, requester, code, template) == Page(template, 200) <==> OwnerOnly(projects, requester, code).None?
    ensures OwnerOnly(projects, requester, code) == Some(NotFound) <==> OwnerPage(projects, requester, code, template) == NotFound
  {
  }

  /**
   * The payment gate is stricter than the detail gate: whoever may pay for
   * a project may view it, while an admin who is not the client may view it
   * but not pay for it.
   */
  lemma {:induction false} OwnerOnlyStricterThanDetail(users: map<UserId, User>, projects: map<string, Project>,
                                                       requester: UserId, code: string)
    requires requester in users
    ensures OwnerOnly(projects, requester, code).None? ==>
      ProjectDetail(users, projects, requester, code) == Page("core/project_detail.html", 200)
    ensures code in projects && projects[code].client != requester && users[requester].isAdmin ==>
      ProjectDetail(users, projects, requester, code) == Page("core/project_detail.html", 200) &&
      OwnerOnly(projects, requester, code).Some?
  {
  }

  /** Where a fresh login is sent: admin first, then analyst, then client. */
  function LoginRedirect(u: User): (target: string)
    ensures target == "core:admin_dashboard" <==> u.isAdmin
    ensures target == "core:analyst_dashboard" <==> !u.isAdmin && u.isAnalyst
    ensures target == "core:client_dashboard" <==> IsClient(u)
  {
    if u.isAdmin then "core:admin_dashboard"
    else if u.isAnalyst then "core:analyst_dashboard"
    else "core:client_dashboard"
  }

  // ---------------------------------------------------------------------------
  // Dashboards
  // ---------------------------------------------------------------------------

  /** The projects listed on a client's dashboard: those they are the client of. */
  function ClientDashboard(projects: map<string, Project>, requester: UserId): (r: set<string>)
    ensures forall c :: c in r <==> c in projects && projects[c].client == requester
  {
    set c | c in projects && projects[c].client == requester
  }

  /** The projects listed on an analyst's dashboard: those assigned to them. */
  function AnalystDashboard(projects: map<string, Project>, requester: UserId): (r: set<string>)
    ensures forall c :: c in r <==> c in projects && projects[c].assignedAnalyst == Some(requester)
  {
    set c | c in projects && projects[c].assignedAnalyst == Some(requester)
  }

  /** Every project on a client's dashboard opens for them, and they may pay for it. */
  lemma {:induction false} ClientDashboardOpens(users: map<UserId, User>, projects: map<string, Project>, requester: UserId)
    requires requester in users
    ensures forall c :: c in ClientDashboard(projects, requester) ==>
      ProjectDetail(users, projects, requester, c) == Page("core/project_detail.html", 200) &&
      OwnerOnly(projects, requester, c).None?
  {
    forall c | c in ClientDashboard(projects, requester)
      ensures ProjectDetail(users, projects, requester, c) == Page("core/project_detail.html", 200)
    {
      assert projects[c].client == requester;
    }
  }

  /**
   * An analyst who is not an admin is refused the detail page of a project
   * on their own dashboard unless they are also its client.
   */
  lemma {:induction false} AnalystDashboardRefused(users: map<UserId, User>, projects: map<string, Project>,
                                                   requester: UserId, code: string)
    requires requester in users && !users[requester].isAdmin
    requires code in AnalystDashboard(projects, requester) && projects[code].client != requester
    ensures ProjectDetail(users, projects, requester, code) == Page("core/access_denied.html", 403)
  {
    assert code in projects;
  }

  // ---------------------------------------------------------------------------
  // Magic-link login
  // ---------------------------------------------------------------------------

  const RequestTemplate: string := "auth/request_magic_link.html"
  const InvalidTokenTemplate: string := "core/invalid_token.html"

  /** The alias a link request uses: the one given, or `User-` and a random suffix. */
  function EffectiveAlias(alias: Option<string>, randomSuffix: string): (a: string)
    ensures Truthy(alias) ==> a == alias.value
    ensures !Truthy(alias) ==> a == "User-" + randomSuffix
  {
    if Truthy(alias) then alias.value else "User-" + randomSuffix
  }

  /** The email stored on a new account: the one given, or none when it is missing or empty. */
  function EffectiveEmail(email: Option<string>): (e: Option<string>)
    ensures Truthy(email) ==> e == email
    ensures !Truthy(email) ==> e.None?
  {
    if Truthy(email) then email else None
  }

  /** Get-or-create cannot insert: the alias is new and the fresh primary key is already in use. */
  ghost predicate KeyCollides(users: map<UserId, User>, a: string, newId: UserId)
  {
    (!exists id :: HasAlias(users, id, a)) && newId in users
  }

  /**
   * `h` is the account a request for alias `a` lands on: the holder of the
   * alias, or the fresh key when the alias is new and the key is free.
   */
  ghost predicate LandsOn(users: map<UserId, User>, a: string, newId: UserId, h: UserId)
  {
    HasAlias(users, h, a) || ((!exists id :: HasAlias(users, id, a)) && h == newId && newId !in users)
  }

  /** With unique aliases, a request either collides on the fresh key or lands on exactly one account. */
  lemma {:induction false} LandsOnExactlyOne(users: map<UserId, User>, a: string, newId: UserId)
    requires AliasesUnique(users)
    ensures KeyCollides(users, a, newId) <==> !exists h :: LandsOn(users, a, newId, h)
    ensures forall h1, h2 :: LandsOn(users, a, newId, h1) && LandsOn(users, a, newId, h2) ==> h1 == h2
  {
    if exists id :: HasAlias(users, id, a) {
      var id :| HasAlias(users, id, a);
      assert LandsOn(users, a, newId, id);
      forall h1, h2 | LandsOn(users, a, newId, h1) && LandsOn(users, a, newId, h2)
        ensures h1 == h2
      {
        assert HasAlias(users, h1, a) && HasAlias(users, h2, a);
      }
    } else if newId !in users {
      assert LandsOn(users, a, newId, newId);
    }
  }

  /** The users after get-or-create landed on `h`: unchanged when `h` exists, else with `h` a new client. */
  ghost function AfterGetOrCreate(users: map<UserId, User>, h: UserId, a: string, email: Option<string>, now: int)
    : map<UserId, User>
  {
    if h in users then users else users[h := NewUser(a, email, now)]
  }

  /** Creating `h` (without a token) does not change who else holds a token. */
  lemma {:induction false} CreateKeepsOtherHolders(users: map<UserId, User>, h: UserId, a: string, email: Option<string>,
                                                  now: int, token: string)
    ensures TokenHeldByOther(AfterGetOrCreate(users, h, a, email, now), h, token) <==> TokenHeldByOther(users, h, token)
  {
    var after := AfterGetOrCreate(users, h, a, email, now);
    if TokenHeldByOther(after, h, token) {
      var o :| o != h && HoldsToken(after, o, token);
      assert HoldsToken(users, o, token);
    }
    if TokenHeldByOther(users, h, token) {
      var o :| o != h && HoldsToken(users, o, token);
      assert HoldsToken(after, o, token);
    }
  }

  /**
   * Request a magic link. Without POST the form is shown; with neither an
   * alias nor an email an error is shown and nothing changes. Otherwise:
   * when the alias is new and the fresh key is taken, the insert fails and
   * nothing changes; else the request lands on one account (the alias's
   * holder, or a new client under the fresh key). The link is shown iff no
   * other account holds the token; then the token, expiring 24 hours after
   * `now`, is stored on that account and exactly one `magic_link_requested`
   * row is appended. When another account holds the token the save fails:
   * a newly created account stays, without a token, and no row is written.
   */
  method RequestMagicLink(db: Db, isPost: bool, alias: Option<string>, email: Option<string>, randomSuffix: string,
                          token: string, newId: UserId, ip: Option<string>, now: int)
    returns (resp: Response)
    requires db.Valid()
    modifies db
    ensures db.Valid()
    ensures !isPost ==> resp == Page(RequestTemplate, 200) && db.users == old(db.users) && db.log == old(db.log)
    ensures isPost && !Truthy(alias) && !Truthy(email) ==>
      resp == ErrorPage(RequestTemplate, "Please provide either an alias or email.") &&
      db.users == old(db.users) && db.log == old(db.log)
    ensures isPost && (Truthy(alias) || Truthy(email)) ==> resp.LinkPage? || resp.ServerError?
    ensures isPost && (Truthy(alias) || Truthy(email)) && KeyCollides(old(db.users), EffectiveAlias(alias, randomSuffix), newId) ==>
      resp == ServerError && db.users == old(db.users) && db.log == old(db.log)
    ensures resp.LinkPage? ==> LandsOn(old(db.users), EffectiveAlias(alias, randomSuffix), newId, resp.user)
    ensures isPost && (Truthy(alias) || Truthy(email)) ==>
      forall h :: LandsOn(old(db.users), EffectiveAlias(alias, randomSuffix), newId, h) ==>
        var created := AfterGetOrCreate(old(db.users), h, EffectiveAlias(alias, randomSuffix), EffectiveEmail(email), now);
        && (resp.LinkPage? <==> !TokenHeldByOther(old(db.users), h, token))
        && (resp.LinkPage? ==>
              && resp == LinkPage(h, token)
              && db.users == created[h := WithToken(created[h], token, now)]
              && db.log == old(db.log) + [AuditEntry(None, Some(h), MagicLinkRequested,
                                                     AliasDetails(EffectiveAlias(alias, randomSuffix)), ip, None, now)])
        && (!resp.LinkPage? ==> resp == ServerError && db.users == created && db.log == old(db.log))
    ensures db.projects == old(db.projects) && db.session == old(db.session)
  {
    if !isPost {
      return Page(RequestTemplate, 200);
    }
    if !Truthy(alias) && !Truthy(email) {
      return ErrorPage(RequestTemplate, "Please provide either an alias or email.");
    }
    var a := EffectiveAlias(alias, randomSuffix);
    var em := EffectiveEmail(email);
    ghost var before := db.users;
    LandsOnExactlyOne(before, a, newId);
    var found := GetOrCreatePseudonymousUser(db, a, em, newId, now);
    if found.None? {
      return ServerError;
    }
    var id := found.value.0;
    assert LandsOn(before, a, newId, id);
    assert db.users == AfterGetOrCreate(before, id, a, em, now);
    CreateKeepsOtherHolders(before, id, a, em, now, token);
    var saved := IssueToken(db, id, token, now);
    if !saved {
      return ServerError;
    }
    db.log := db.log + [AuditEntry(None, Some(id), MagicLinkRequested, AliasDetails(db.users[id].alias), ip, None, now)];
    resp := LinkPage(id, token);
  }

  /** The login view's expiry test: the token must expire strictly after `now`. */
  predicate ViewAccepts(u: User, now: int)
  {
    u.magicTokenExpires.Some? && u.magicTokenExpires.value > now
  }

  /** Whether some user holds `token` and the login view would accept it at `now`. */
  ghost predicate TokenAcceptedByView(users: map<UserId, User>, token: string, now: int)
  {
    exists id :: HoldsToken(users, id, token) && ViewAccepts(users[id], now)
  }

  /**
   * The login view is stricter than the library verifier, and the two
   * disagree exactly on a token whose expiry is `now` itself.
   */
  lemma VerificationPathsDisagreeAtExpiry(u: User, now: int)
    ensures ViewAccepts(u, now) ==> AuthAccepts(u, now)
    ensures AuthAccepts(u, now) && !ViewAccepts(u, now) <==> u.magicTokenExpires == Some(now)
  {
  }

  /**
   * Log in with a magic link. Without a token, or with a token that is
   * unknown, consumed or not strictly in date, an error page is shown and
   * nothing changes. Otherwise the session refers to the token's holder, the
   * token and expiry are cleared, the login time is set, one
   * `user_logged_in` row is appended, and the user is sent to the dashboard
   * of their highest role.
   */
  method VerifyMagicLink(db: Db, token: Option<string>, now: int, ip: Option<string>, userAgent: Option<string>)
    returns (resp: Response)
    requires db.Valid()
    modifies db
    ensures db.Valid()
    ensures !Truthy(token) ==> resp == ErrorPage(InvalidTokenTemplate, "No token provided")
    ensures Truthy(token) && !TokenAcceptedByView(old(db.users), token.value, now) ==>
      resp == ErrorPage(InvalidTokenTemplate, "Invalid or expired token")
    ensures resp.Redirect? <==> Truthy(token) && TokenAcceptedByView(old(db.users), token.value, now)
    ensures !resp.Redirect? ==>
      db.users == old(db.users) && db.log == old(db.log) && db.session == old(db.session)
    ensures resp.Redirect? ==>
      && db.session.Some?
      && HoldsToken(old(db.users), db.session.value, token.value)
      && ViewAccepts(old(db.users)[db.session.value], now)
      && db.users == old(db.users)[db.session.value := Consume(old(db.users)[db.session.value], now)]
      && db.log == old(db.log) + [AuditEntry(None, db.session, UserLoggedIn, NoDetails, ip, userAgent, now)]
      && resp == Redirect(LoginRedirect(old(db.users)[db.session.value]))
      && forall id :: !HoldsToken(db.users, id, token.value)
    ensures db.projects == old(db.projects)
  {
    if !Truthy(token) {
      return ErrorPage(InvalidTokenTemplate, "No token provided");
    }
    var t := token.value;
    if !exists id :: id in db.users && db.users[id].magicToken == Some(t) && ViewAccepts(db.users[id], now) {
      return ErrorPage(InvalidTokenTemplate, "Invalid or expired token");
    }
    var id :| id in db.users && db.users[id].magicToken == Some(t) && ViewAccepts(db.users[id], now);
    forall other | HoldsToken(db.users, other, t)
      ensures other == id
    {
      TokenHolderUnique(db.users, other, id, t);
    }
    db.session := Some(id);
    var u := db.users[id];
    ClearKeepsConsistent(db.users, db.projects, db.log, id, Consume(u, now));
    db.users := db.users[id := Consume(u, now)];
    db.log := db.log + [AuditEntry(None, Some(id), UserLoggedIn, NoDetails, ip, userAgent, now)];
    resp := Redirect(LoginRedirect(u));
  }

  /**
   * Log out: the session id is removed, and one `user_logged_out` row is
   * appended only when that id named an existing user.
   */
  method LogoutView(db: Db, ip: Option<string>, now: int) returns (resp: Response)
    requires db.Valid()
    modifies db
    ensures db.Valid()
    ensures resp == Redirect("home") && db.session.None?
    ensures old(db.session).Some? && old(db.session).value in old(db.users) ==>
      db.log == old(db.log) + [AuditEntry(None, old(db.session), UserLoggedOut, NoDetails, ip, None, now)]
    ensures !(old(db.session).Some? && old(db.session).value in old(db.users)) ==> db.log == old(db.log)
    ensures db.users == old(db.users) && db.projects == old(db.projects)
  {
    var sid := db.session;
    db.session := None;
    if sid.Some? && sid.value in db.users {
      db.log := db.log + [AuditEntry(None, sid, UserLoggedOut, NoDetails, ip, None, now)];
    }
    resp := Redirect("home");
  }

  /**
   * Anyone who asks for a link for an existing alias, with a token nobody
   * holds, is shown a working link and, following it at once, is logged in
   * as that alias's holder and sent to the holder's dashboard, an admin's
   * included.
   */
  method LinkOnScreenLogsIn(db: Db, alias: string, token: string, newId: UserId, ip: Option<string>, now: int)
    returns (shown: Response, login: Response)
    requires db.Valid() && alias != "" && token != ""
    requires exists id :: HasAlias(db.users, id, alias)
    requires forall id :: !HoldsToken(db.users, id, token)
    modifies db
    ensures shown.LinkPage? && login.Redirect?
    ensures db.session == Some(shown.user) && shown.user in old(db.users) && old(db.users)[shown.user].alias == alias
    ensures login == Redirect(LoginRedirect(old(db.users)[shown.user]))
    ensures db.Valid() && db.projects == old(db.projects)
    ensures db.users == old(db.users)[shown.user := Consume(WithToken(old(db.users)[shown.user], token, now), now)]
    ensures db.log == old(db.log) + [AuditEntry(None, Some(shown.user), MagicLinkRequested, AliasDetails(alias), ip, None, now),
                                     AuditEntry(None, Some(shown.user), UserLoggedIn, NoDetails, ip, None, now)]
  {
    ghost var holder :| HasAlias(db.users, holder, alias);
    assert LandsOn(db.users, alias, newId, holder);
    assert !TokenHeldByOther(db.users, holder, token);
    shown := RequestMagicLink(db, true, Some(alias), None, "", token, newId, ip, now);
    ghost var shownUsers := db.users;
    assert HoldsToken(shownUsers, holder, token) && ViewAccepts(shownUsers[holder], now);
    login := VerifyMagicLink(db, Some(token), now, ip, None);
    TokenHolderUnique(shownUsers, holder, db.session.value, token);
  }

  // ---------------------------------------------------------------------------
  // Project submission
  // ---------------------------------------------------------------------------

  /** The submission form as posted: each field may be missing. */
  datatype SubmitForm = SubmitForm(
    title: Option<string>,
    description: Option<string>,
    stage: Option<string>,
    supportType: Option<string>,
    researchArea: Option<string>,
    lawfulUse: Option<string>,
    dataRights: Option<string>)

  /** The row the form yields: none when a NOT NULL text field is missing; a checkbox is ticked iff non-empty. */
  function FormSubmission(f: SubmitForm): (s: Option<Submission>)
    ensures s.Some? <==> f.title.Some? && f.description.Some? && f.stage.Some? && f.supportType.Some? && f.researchArea.Some?
    ensures s.Some? ==> s.value.title == f.title.value && s.value.description == f.description.value
    ensures s.Some? ==> s.value.stage == f.stage.value && s.value.supportType == f.supportType.value
    ensures s.Some? ==> s.value.researchArea == f.researchArea.value
    ensures s.Some? ==> s.value.confirmsLawfulUse == Truthy(f.lawfulUse) && s.value.confirmsDataRights == Truthy(f.dataRights)
  {
    if f.title.None? || f.description.None? || f.stage.None? || f.supportType.None? || f.researchArea.None? then None
    else Some(Submission(f.title.value, f.description.value, f.stage.value, f.supportType.value, f.researchArea.value,
                         Truthy(f.lawfulUse), Truthy(f.dataRights)))
  }

  /**
   * Submit a project as `requester`. Without POST the form is shown. A
   * missing required field or a generated id already in use fails the
   * insert and nothing changes. Otherwise one project with the generated id,
   * this client and the default statuses is added, one `project_submitted`
   * row is appended, and the client is sent to its detail page.
   */
  method SubmitProject(db: Db, requester: UserId, isPost: bool, form: SubmitForm, prefix: string, picks: seq<nat>, now: int)
    returns (resp: Response)
    requires db.Valid() && requester in db.users && ValidPicks(picks)
    modifies db
    ensures db.Valid()
    ensures !isPost ==> resp == Page("core/submit_project.html", 200) && db.projects == old(db.projects) && db.log == old(db.log)
    ensures isPost && (FormSubmission(form).None? || GenerateProjectId(prefix, picks) in old(db.projects)) ==>
      resp == ServerError && db.projects == old(db.projects) && db.log == old(db.log)
    ensures isPost && FormSubmission(form).Some? && GenerateProjectId(prefix, picks) !in old(db.projects) ==>
      var code := GenerateProjectId(prefix, picks);
      && resp == ProjectRedirect(code)
      && db.projects == old(db.projects)[code := NewProject(code, requester, FormSubmission(form).value, now)]
      && db.log == old(db.log) + [AuditEntry(Some(code), Some(requester), ProjectSubmitted, NoDetails, None, None, now)]
    ensures db.users == old(db.users) && db.session == old(db.session)
  {
    if !isPost {
      return Page("core/submit_project.html", 200);
    }
    var sub := FormSubmission(form);
    var code := GenerateProjectId(prefix, picks);
    if sub.None? || code in db.projects {
      return ServerError;
    }
    db.projects := db.projects[code := NewProject(code, requester, sub.value, now)];
    db.log := db.log + [AuditEntry(Some(code), Some(requester), ProjectSubmitted, NoDetails, None, None, now)];
    resp := ProjectRedirect(code);
  }

  // ---------------------------------------------------------------------------
  // Payment endpoints
  // ---------------------------------------------------------------------------

  const MethodNotAllowed: Response := Json(405, Failure("Method not allowed"))

  /**
   * Start a payment, as the project's client. Refused with no change for an
   * unknown project (404), anyone but the client (403), a request other than
   * POST (405), and an amount that is missing, malformed or not positive
   * (400). Otherwise the processor is asked for an intent: on an error the
   * answer is 500 and nothing changes; on success the project records the
   * intent and moves to `processing`.
   */
  method CreatePaymentView(db: Db, requester: UserId, code: string, isPost: bool, amountCents: Option<int>,
                           answer: Payment.Creation)
    returns (resp: Response)
    requires db.Valid()
    modifies db
    ensures db.Valid()
    ensures OwnerOnly(old(db.projects), requester, code).Some? ==>
      resp == OwnerOnly(old(db.projects), requester, code).value && db.projects == old(db.projects)
    ensures OwnerOnly(old(db.projects), requester, code).None? && !isPost ==>
      resp == MethodNotAllowed && db.projects == old(db.projects)
    ensures OwnerOnly(old(db.projects), requester, code).None? && isPost && (amountCents.None? || amountCents.value <= 0) ==>
      resp == Json(400, Failure("Invalid amount")) && db.projects == old(db.projects)
    ensures OwnerOnly(old(db.projects), requester, code).None? && isPost && amountCents.Some? && amountCents.value > 0 ==>
      && (answer.CreateFailed? ==> resp == Json(500, Failure("Failed to create payment")) && db.projects == old(db.projects))
      && (answer.IntentCreated? ==>
            resp == Json(200, IntentReady(answer.intentId)) &&
            db.projects == old(db.projects)[code := old(db.projects)[code].(
              stripePaymentIntentId := Some(answer.intentId), paymentStatus := Processing)])
    ensures db.users == old(db.users) && db.log == old(db.log) && db.session == old(db.session)
  {
    var refusal := OwnerOnly(db.projects, requester, code);
    if refusal.Some? {
      return refusal.value;
    }
    if !isPost {
      return MethodNotAllowed;
    }
    if amountCents.None? || amountCents.value <= 0 {
      return Json(400, Failure("Invalid amount"));
    }
    var intent := Payment.CreatePaymentIntent(db, code, answer);
    if intent.None? {
      return Json(500, Failure("Failed to create payment"));
    }
    resp := Json(200, IntentReady(intent.value));
  }

  /**
   * Confirm a payment, as the project's client, with the intent id the
   * request names. The same refusals as above (404, 403, 405), then 400 for
   * an empty intent id, all with no change. Otherwise the payment manager's
   * confirmation runs: 200 iff the intent succeeded, 400 else.
   */
  method ConfirmPaymentView(db: Db, requester: UserId, code: string, isPost: bool, intentId: string,
                            answer: Payment.Retrieval, now: int)
    returns (resp: Response)
    requires db.Valid()
    modifies db
    ensures db.Valid()
    ensures OwnerOnly(old(db.projects), requester, code).Some? ==>
      resp == OwnerOnly(old(db.projects), requester, code).value && db.projects == old(db.projects) && db.log == old(db.log)
    ensures OwnerOnly(old(db.projects), requester, code).None? && !isPost ==>
      resp == MethodNotAllowed && db.projects == old(db.projects) && db.log == old(db.log)
    ensures OwnerOnly(old(db.projects), requester, code).None? && isPost && intentId == "" ==>
      resp == Json(400, Failure("Missing payment intent ID")) && db.projects == old(db.projects) && db.log == old(db.log)
    ensures OwnerOnly(old(db.projects), requester, code).None? && isPost && intentId != "" ==>
      && (resp == Json(200, Success("Payment confirmed")) <==> Payment.Succeeded(answer))
      && (!Payment.Succeeded(answer) ==> resp == Json(400, Failure("Payment confirmation failed")))
      && (Payment.Succeeded(answer) ==>
            db.projects == old(db.projects)[code := Payment.Confirmed(old(db.projects)[code])] &&
            db.log == old(db.log) + [Payment.PaymentProcessedEntry(code, answer, intentId, now)])
      && (!Payment.Succeeded(answer) ==>
            db.projects == old(db.projects)[code := old(db.projects)[code].(paymentStatus := Failed)] &&
            db.log == old(db.log))
    ensures db.users == old(db.users) && db.session == old(db.session)
  {
    var refusal := OwnerOnly(db.projects, requester, code);
    if refusal.Some? {
      return refusal.value;
    }
    if !isPost {
      return MethodNotAllowed;
    }
    if intentId == "" {
      return Json(400, Failure("Missing payment intent ID"));
    }
    var ok := Payment.ConfirmPayment(db, code, intentId, answer, now);
    if ok {
      return Json(200, Success("Payment confirmed"));
    }
    resp := Json(400, Failure("Payment confirmation failed"));
  }

  /**
   * Release the escrowed payment (behind the admin wrapper). 404 for an
   * unknown project, 405 without POST, 400 when the project is not
   * `completed` or no analyst account is given, all without consulting the
   * processor and with no change. Otherwise the manager's release runs and
   * its verdict is returned; the project itself never changes.
   */
  method ReleasePaymentView(db: Db, code: string, isPost: bool, analystAccount: string,
                            answer: Payment.Retrieval, transfer: Payment.TransferResult, now: int)
    returns (resp: Response)
    requires db.Valid()
    modifies db
    ensures db.Valid()
    ensures code !in old(db.projects) ==> resp == NotFound && db.log == old(db.log)
    ensures code in old(db.projects) && !isPost ==> resp == MethodNotAllowed && db.log == old(db.log)
    ensures code in old(db.projects) && isPost && old(db.projects)[code].status != Completed ==>
      resp == Json(400, Failure("Project must be completed first")) && db.log == old(db.log)
    ensures code in old(db.projects) && isPost && old(db.projects)[code].status == Completed && analystAccount == "" ==>
      resp == Json(400, Failure("Analyst Stripe account not configured")) && db.log == old(db.log)
    ensures code in old(db.projects) && isPost && old(db.projects)[code].status == Completed && analystAccount != "" ==>
      var ok := Truthy(old(db.projects)[code].stripePaymentIntentId) && Payment.Succeeded(answer) && transfer.Transferred?;
      && resp == Json(200, SuccessFlag(ok))
      && (ok ==> db.log == old(db.log) + [Payment.PayoutReleasedEntry(code, transfer.transferId, answer.amount, now)])
      && (!ok ==> db.log == old(db.log))
    ensures db.users == old(db.users) && db.projects == old(db.projects) && db.session == old(db.session)
  {
    if code !in db.projects {
      return NotFound;
    }
    if !isPost {
      return MethodNotAllowed;
    }
    if db.projects[code].status != Completed {
      return Json(400, Failure("Project must be completed first"));
    }
    if analystAccount == "" {
      return Json(400, Failure("Analyst Stripe account not configured"));
    }
    var ok := Payment.ReleasePaymentToAnalyst(db, code, answer, transfer, now);
    resp := Json(200, SuccessFlag(ok));
  }

  /** The refund reason: the one given, or a fixed text when the field is absent. */
  function RefundReason(reason: Option<string>): (r: string)
    ensures reason.Some? ==> r == reason.value
    ensures reason.None? ==> r == "No reason provided"
  {
    if reason.Some? then reason.value else "No reason provided"
  }

  /**
   * Refund the client (behind the admin wrapper). 404 for an unknown
   * project and 405 without POST, with no change. Otherwise the manager's
   * refund runs; when it succeeds the payment is `refunded` and the project
   * `rejected`, whatever its status was; when it fails the answer is 400
   * and nothing changes.
   */
  method RefundPaymentView(db: Db, code: string, isPost: bool, reason: Option<string>,
                           answer: Payment.Retrieval, refund: Payment.RefundResult, now: int)
    returns (resp: Response)
    requires db.Valid()
    modifies db
    ensures db.Valid()
    ensures code !in old(db.projects) ==> resp == NotFound && db.projects == old(db.projects) && db.log == old(db.log)
    ensures code in old(db.projects) && !isPost ==>
      resp == MethodNotAllowed && db.projects == old(db.projects) && db.log == old(db.log)
    ensures code in old(db.projects) && isPost ==>
      var ok := Truthy(old(db.projects)[code].stripePaymentIntentId) && Payment.Succeeded(answer) && refund.RefundCreated?;
      && (ok ==>
            && resp == Json(200, SuccessFlag(true))
            && db.projects == old(db.projects)[code := old(db.projects)[code].(paymentStatus := Refunded, status := Rejected)]
            && db.log == old(db.log) + [Payment.PaymentRefundedEntry(code, refund.refundId, refund.amount, RefundReason(reason), now)])
      && (!ok ==> resp == Json(400, Failure("Refund failed")) && db.projects == old(db.projects) && db.log == old(db.log))
    ensures db.users == old(db.users) && db.session == old(db.session)
  {
    if code !in db.projects {
      return NotFound;
    }
    if !isPost {
      return MethodNotAllowed;
    }
    var ok := Payment.RefundPayment(db, code, RefundReason(reason), answer, refund, now);
    if ok {
      var rejected := db.projects[code].(status := Rejected);
      assert rejected == old(db.projects)[code].(paymentStatus := Refunded, status := Rejected);
      ReviseKeepsConsistent(db.users, db.projects, db.log, code, rejected);
      db.projects := db.projects[code := rejected];
      assert db.projects == old(db.projects)[code := rejected];
      return Json(200, SuccessFlag(true));
    }
    resp := Json(400, Failure("Refund failed"));
  }
}

=== FILE: wrappers.dfy ===
/** The optional-value datatype and Python's truth test on optional strings, shared by every module. */
module Wrappers {

  datatype Option<+T> = None | Some(value: T)

  /** Python truthiness of an optional string: `None` and `""` are both false. */
  predicate Truthy(s: Option<string>)
  {
    s.Some? && s.value != ""
  }
}
